=== FILE: README.md ===
# A Dafny model of the calendar core of `calendar.js`

`calendar.js` is the page script of a single-user desktop calendar. It keeps
every event in one saved object that maps `YYYY-MM-DD` date keys to lists of
`{ id, title, time, notes, completed, createdAt }` records. From that object
it derives three views: a 6×7 month grid with a dot on days that have events,
the list of the selected date's events (not-yet-done first, then by time), and
a list of upcoming events across all dates. The page keeps a selected date,
an edit target and three form inputs; its buttons add, edit, delete and tick
events and move between months.

This project restates that logic as pure Dafny functions over immutable
values and proves what the code promises:

- `wrappers.dfy`: the `Option` type used for `null`, `undefined` and `NaN`.
- `text.dfy`: JavaScript's string helpers as the script uses them: `trim`,
  `String(n)`, `padStart(2, "0")`, `Number(s)`, `split` and the `localeCompare`
  order on time strings.
- `dates.dfy`: `daysInMonth`, `firstDayOfMonth`, `isToday` and `formatLongDate`
  as integer arithmetic on the proleptic Gregorian calendar. The day count
  starts at 0000-01-01, and month overflow is normalised the way `Date` does it.
- `datekeys.dfy`: `dateKey` and `parseDateKey`.
- `seqs.dfy`, `sorting.dfy`: `filter`, `slice` and a stable sort with a
  comparator, the behaviour `Array.prototype.sort` has when the comparator is
  consistent.
- `store.dfy`: the saved object as an association list, which keeps keys in
  insertion order as a JavaScript object does. It holds the read-modify-write
  halves of add, `saveEdit`, `deleteEvent` and `toggleCompleted`.
- `grid.dfy`: `renderCalendar` as 42 cell descriptors.
- `views.dfy`: the per-date ordering and `renderUpcoming`.
- `ui.dfy`: `selected`, `editing`, the form and the shown month, with the
  handlers as transitions and an invariant every action keeps.

The clock, the id generator and the storage are parameters. They are `today`,
`now` (a whole minute), the fresh `id` and `createdAt`, and the loaded
snapshot.

## Model

| member | source | states |
|---|---|---|
| Text.Trim | calendar.js:302-308 | `trim` never lengthens its input. What it removes is stated by the two rows below. |
| Text.TrimStripsSpace | calendar.js:302-308 | The trimmed input is one contiguous slice of the input that starts after its leading white space. Everything outside the slice is white space, and a non-empty result neither begins nor ends with white space. |
| Text.TrimEmpty | calendar.js:302-308 | The trimmed input is empty exactly when the input is all white space. |
| Text.TrimIdempotent | calendar.js:302-308 | Trimming an already trimmed input changes nothing. |
| Text.IntToString | calendar.js:102-105 | `String(n)` is non-empty and starts with a minus sign exactly for a negative number. The rest is decimal digits. |
| Text.PadStart2 | calendar.js:102-103 | `padStart(2, "0")` gives length two for shorter inputs and leaves longer ones as long as they were. A numeral stays a numeral. |
| Text.PadStart2Pads | calendar.js:102-103 | The padded text is the input with only zeros in front of it. |
| Text.NumberOf | calendar.js:109 | `Number` of a blank string is 0, and `Number` of a numeral is its value. |
| Text.Split | calendar.js:109 | `split` with a one-character separator gives one more piece than there are separators. |
| Text.SplitThree | calendar.js:107-111 | Three separator-free pieces joined by the separator split back into exactly those three pieces. |
| Text.NumberOfPaddedDigits | calendar.js:107-111 | `Number` applied to a two-digit zero-padded numeral gives back the number. |
| Text.IntToStringInjective | calendar.js:99-105 | `String(n)` gives different integers different texts. |
| Text.LexLeTransitive | calendar.js:469-474 | The `localeCompare` order on time strings is transitive, so the per-date comparator is consistent. |
| Dates.DaysInMonth | calendar.js:122-125 | A month has 28 to 31 days. February has 29 days in Gregorian leap years and 28 otherwise. April, June, September and November have 30. Every other month has 31. |
| Dates.YearStartStep | calendar.js:122-125 | The closed-form count of leap days agrees with the month table: the next year starts 365 or 366 days later. |
| Dates.DayZeroIsLastDay | calendar.js:122-125 | Day 0 of the next month (December rolls into January) is the last day of this month. The firsts of consecutive months are `DaysInMonth` days apart. |
| Dates.FirstDayOfMonth | calendar.js:127-130 | The first weekday of a month is in 0..6 (0 is Sunday). Which weekday it is follows from the next three rows. |
| Dates.NextMonthFirstWeekday | calendar.js:122-130 | The next month starts on (this month's first weekday + its length) mod 7, with December rolling into January of the next year. |
| Dates.WeekdayOfDay | calendar.js:127-130 | Day d of a month falls d - 1 weekdays after the month's first day, counted mod 7. |
| Dates.KnownWeekdays | calendar.js:127-130 | 1970-01-01, 2024-02-01 and 2026-10-01 fall on a Thursday, and 2000-01-01 falls on a Saturday. |
| Dates.KnownMonthLengths | calendar.js:122-125 | February has 29 days in 2024 and 2000, and 28 in 2023 and 1900. |
| Dates.IsToday | calendar.js:132-135 | A date is today exactly when year, month index and day all match today's. |
| Dates.FormatLongDateInjective | calendar.js:137-139 | Different dates get different "Month D, YYYY" labels. |
| Dates.DaysInMonthAsWritten | calendar.js:122-125 | The code's `daysInMonth` is the Gregorian month length of the year `new Date` actually uses. |
| Dates.FirstDayOfMonthAsWritten | calendar.js:127-130 | The code's `firstDayOfMonth` is in 0..6 and is the Gregorian first weekday of the year `new Date` actually uses. |
| Dates.AsWrittenAgreesOutsideTwoDigitYears | calendar.js:122-130 | Outside years 0..99, the code's month length and first weekday equal the Gregorian ones. |
| Dates.TwoDigitYearCounterexample | calendar.js:122-130 | February of year 0 is 28 days long as written but 29 by the calendar. January of year 50 starts on weekday 0 as written but on 6 by the calendar. |
| DateKeys.DateKey | calendar.js:99-105 | A key is non-empty and starts with a hyphen exactly when its year is negative. |
| DateKeys.ParseDateKeyAsWritten | calendar.js:107-111 | The code reads every key that starts with a hyphen, when it reads it at all, as a date in year 0. |
| DateKeys.ParseDateKey | calendar.js:107-111 | For every key that does not start with a hyphen, the corrected reading gives the same result as the code. |
| DateKeys.AsWrittenRoundTrip | calendar.js:99-111 | For years from 0 on, the code as written reads every key back to its date. |
| DateKeys.KeyRoundTrip | calendar.js:99-111 | Every date with a non-negative month index and day, in any year, is read back from its key. |
| DateKeys.DateKeyInjective | calendar.js:99-105 | Different dates have different keys. |
| DateKeys.KeyShape | calendar.js:99-105 | The key of a real day is the year, a hyphen, two digits, a hyphen and two digits. |
| DateKeys.NegativeYearCounterexample | calendar.js:107-111 | "-5-01-01", the key of 1 January of year -5, is read by the code as 1 May of year 0. The corrected reading gives the date back. |
| Seqs.Take | calendar.js:591 | `slice(0, n)` gives the first `n` elements in order, or all of them when there are fewer. |
| Seqs.Filter | calendar.js:396-397 | The result keeps exactly the elements that pass, each as many times as the input holds it, and drops every other element. |
| Sorting.Sort | calendar.js:469-474 | The result is a permutation of the input: every element occurs as often as before. |
| Sorting.SortSorted | calendar.js:469-474 | When the comparator is a total preorder, each element of the result may precede every later one. |
| Sorting.SortIsStable | calendar.js:469-474 | Elements that compare equal keep their original relative order. |
| Sorting.FilterSortCommute | calendar.js:586-591 | Filtering after the stable sort equals sorting the filtered sequence. |
| Sorting.TakeOfSorted | calendar.js:589-591 | `slice(0, n)` of a sorted sequence keeps min(n, length) elements, and every element left out may follow each one kept. |
| Store.Lookup | calendar.js:395-396 | `all[k] \|\| []` is empty for a missing key. In a store without empty lists it is non-empty exactly when the key is present. |
| Store.Put | calendar.js:380-381 | Assigning a key gives it the new list and leaves every other key's list alone. The key keeps its place, or is appended when new. Distinct keys stay distinct. |
| Store.RemoveKey | calendar.js:399-400 | `delete` removes the key and only that key. The other keys keep their order and their lists. |
| Store.RemoveKeyValid | calendar.js:399-403 | Removing a key keeps the keys distinct and the lists non-empty. |
| Store.FindEvent | calendar.js:371 | `findIndex` gives the first position holding the id, or -1 exactly when none does. The same search serves the checkbox at calendar.js:424. |
| Store.Add | calendar.js:344-349 | The new event is appended at the end of its date's list, the date is created when new, every other date is untouched, and the store invariant is kept. |
| Store.Edit | calendar.js:364-381 | The edit fails exactly when the id is missing. Otherwise only the title, time and notes of the first record with the id are replaced. Its id, completion, creation time, the list's length and order, the keys and all other dates are kept. |
| Store.Delete | calendar.js:394-404 | Every record with the id is removed and the rest keep their order. The date disappears exactly when nothing is left. Other dates are untouched. The key order is kept, minus the removed date. The store invariant is kept. |
| Store.Toggle | calendar.js:421-429 | Only the first record with the id has its completion flipped. Nothing changes when there is no such record. The key order and the store invariant are kept. |
| Store.ToggleTwice | calendar.js:421-432 | Toggling twice restores the snapshot. |
| Store.EditUnchanged | calendar.js:375-381 | Saving an edit that keeps the title, time and notes gives back the same snapshot. |
| Store.AddThenDelete | calendar.js:344-404 | Deleting an event just added under a fresh id restores the snapshot, including removing a date the add created. |
| Grid.CellAt | calendar.js:204-240 | One cell of the grid is padding exactly when its day number falls outside the month. Otherwise it shows that day, and it is outlined as today or selected, and has the dot, exactly when the matching condition holds. |
| Grid.Render | calendar.js:188-240 | The grid has exactly 42 cells. Cell i shows day i - first + 1 and is padding exactly when that is outside 1..DaysInMonth. A day cell is today or selected exactly when its date is. It has the dot exactly when its key holds a non-empty list, which in a valid store means the key is present. |
| Grid.DaysInOrder | calendar.js:197-217 | The day cells, read in order, are the days 1..DaysInMonth, each once, so their count is the month length. |
| Grid.DayColumns | calendar.js:198-204 | Every day cell sits in the column of its weekday: cell i is in column i mod 7, and that is the weekday of its day. |
| Grid.SelectedCell | calendar.js:224-232 | At most one cell is selected. One is exactly when the selected date lies in the shown month. |
| Grid.TodayCell | calendar.js:219-222 | At most one cell is today. One is exactly when today lies in the shown month. |
| Views.DayLeTotalPreorder | calendar.js:469-474 | The per-date comparator (not-yet-done first, then by time) is total and transitive. |
| Views.EventsForDay | calendar.js:460-474 | The per-date list is a permutation of the date's events. Every not-yet-done event comes before every done one, and times do not decrease within each group. |
| Views.EventsForDayStable | calendar.js:469-474 | Events in the same state with the same time keep their stored order. |
| Views.InstantOf | calendar.js:567-571 | An event gets an instant only under a key that reads as a date. A time without a colon gives no instant. |
| Views.InstantOfClock | calendar.js:567-571 | A key and an "HH:MM" time give that minute of that day. A missing time gives midnight. |
| Views.FlattenEntry | calendar.js:565-582 | A date gives at most one item per event, each stamped with the date's key. |
| Views.FlattenEntryAppend | calendar.js:566-582 | A date's items keep the order of its list: the items of two lists in a row are the items of the first followed by those of the second. |
| Views.FlattenEntryMembers | calendar.js:565-582 | A date's items are exactly its events whose instant is valid, each stamped with its key and instant. |
| Views.Flatten | calendar.js:564-583 | The flattened items are exactly the items of every date's events. A single date flattens to its own items in list order. |
| Views.FlattenAppend | calendar.js:565-583 | Items follow the order of the keys: the items of two snapshots in a row are the items of the first followed by those of the second. With the single-date case of `Views.Flatten` and `Views.FlattenEntryAppend`, this fixes the order in which the stable sort breaks ties: key order, then list order. |
| Views.Upcoming | calendar.js:558-591 | At most `limit` items. Each is not done and not before `now`. They are in non-decreasing instant order. |
| Views.UpcomingIsPrefix | calendar.js:586-591 | The upcoming list is the first `limit` of all qualifying items in stable instant order. |
| Views.UpcomingComplete | calendar.js:586-591 | The list has min(limit, qualifying count) items. No qualifying item left out is sooner than a shown one. |
| Views.UpcomingItemsAreStored | calendar.js:564-591 | Every upcoming item is an event stored under its key, stamped with the instant of that key and its time. |
| Ui.ExitEditMode | calendar.js:284-294 | Edit mode is left and the three inputs are cleared. The selection and the shown month are kept. |
| Ui.EnterEditMode | calendar.js:277-282 | The edit target is set, and the form, selection and month are kept. |
| Ui.SelectDate | calendar.js:260-269 | Selecting a date always sets the selection, leaves edit mode and clears the inputs. |
| Ui.FormValues | calendar.js:302-308 | The form values are the trimmed inputs. The title is empty exactly when it was all white space. |
| Ui.AddEvent | calendar.js:310-352 | With no selected date or a blank title, nothing changes and the matching alert is raised. Otherwise exactly one record is appended to the selected date: trimmed fields, not done, the given id. Every other date is untouched and edit mode is left. A date without events gets its key last, after every existing key. |
| Ui.SaveEdit | calendar.js:360-386 | With no edit target, nothing happens. With a blank title, nothing changes and an alert is raised. Otherwise edit mode is left. "Not found" is reported exactly when the record is missing, and then the store is unchanged. When the record is found, no alert is raised and the store becomes the edit with the trimmed inputs. |
| Ui.DeleteEvent | calendar.js:394-413 | The store is the deletion. Edit mode is left exactly when the deleted event is the one being edited. |
| Ui.ToggleCompleted | calendar.js:421-432 | Only the store changes, by the toggle. |
| Ui.StartEdit | calendar.js:439-450 | On a missing record nothing changes. Otherwise the record's fields fill the form and it becomes the edit target. The selection and the shown month are kept. |
| Ui.ChangeMonth | calendar.js:686-707 | The month stays in 0..11 for any step. One step forward or back moves the absolute month by exactly that step, rolling the year at the boundary. Edit mode is left and the selection is kept. |
| Ui.NextThenPrevious | calendar.js:686-707 | Next month followed by previous month shows the month shown before. |
| Ui.SetToToday | calendar.js:672-684 | Today's month is shown and today is selected, out of edit mode. |
| Ui.ShowMonth | calendar.js:724-732 | A dropdown change shows that month and leaves edit mode. |
| Ui.OpenUpcoming | calendar.js:624-633 | Clicking an upcoming item shows its month and selects its date. Edit mode is left and the inputs are cleared. |
| Ui.Apply | calendar.js:715-743 | The shown month stays a month. An action that raises an alert never writes the store, and only add, save, delete and the checkbox write it. |
| Ui.Start | calendar.js:715-722 | Start-up shows today's month and selects today, with edit mode off and the inputs empty, over the loaded snapshot. |
| Ui.ApplyKeepsInvariant | calendar.js:260-450 | Every action keeps the page invariant. The store stays well formed and keyed by real days, the month is a month, the selection is a real day, and the edit target is one of the selected date's events. |
| Ui.SelectedList | calendar.js:464-474 | With no date selected the list is empty. Otherwise it holds exactly the selected date's events, each as often as stored, in display order: not-done events first, then by time. It is `Views.EventsForDay`, so events that tie keep their stored order. |
| Ui.EditedEventListed | calendar.js:439-474 | The event being edited is always in the list shown beside the grid. |
| Ui.UpcomingKeysAreDates | calendar.js:624-633 | Every upcoming item's key reads back as a real day, so clicking it always selects one. |
| Ui.AddThenDeleteRestores | calendar.js:324-413 | Adding an event with a fresh id and deleting it from the same date's list restores the saved events. |

## Left out

- Storage: `loadAllEvents` and `saveAllEvents` (calendar.js:83-97) with
  `localStorage` and JSON are not modelled. The snapshot is a value, and `Start`
  takes the loaded one. An absent or unreadable slot is the empty snapshot, so
  it is the caller's `[]`.
- The DOM is not modelled: element creation, CSS classes, `innerHTML`,
  `aria-label`, click listeners, `syncUI`, the upcoming list's display stamp
  (calendar.js:607-611) and the dropdown builders (`fillMonthDropdown`,
  `fillYearDropdown`, `ensureYearRange`).
- The clock and identifiers are parameters: `new Date()` becomes `today` and
  `now`, and `crypto.randomUUID`/`Date.now` become the `id` and `createdAt`
  arguments.
- Views.Upcoming: `now` is a whole minute. The source compares milliseconds,
  and every event instant is a whole minute, so comparing with `now` rounded
  up to the next minute is the same test. Time zones, daylight-saving gaps and
  the ±8.64e15 ms range of `Date` are not modelled.
- Views.Upcoming: events whose instant is `NaN` are dropped before sorting. An
  instant is `NaN` for a key that is not a date or a time without two numbers
  around a colon. In the source such items are sorted by an inconsistent
  comparator and then filtered out, because `NaN >= now` is false. They are
  never shown either way, but with them the source's order of the other
  items is implementation-defined.
- Views.InstantOf: the instant uses the corrected calendar for years 0..99
  (see Findings). The source's `new Date(year, …)` would use 1900..1999 there.
  Its own contract says only when there is no instant. The value of the
  instant is stated by `Views.InstantOfClock`.
- Grid.Render: it lays out the month with the corrected `Dates.DaysInMonth`
  and `Dates.FirstDayOfMonth`. For the years 0..99 the source's grid uses the
  as-written functions, which measure 1900..1999 instead (see Findings).
- Text.Trim: its own contract only bounds the length. `Text.TrimStripsSpace`
  and `Text.TrimEmpty` state what is removed. The full statement is kept out
  of the function so that callers which unfold `Trim` stay cheap to verify.
- Text.PadStart2: the zeros in front are stated by `Text.PadStart2Pads`, a
  separate lemma, for the same reason.
- Text.Split: its contract counts the pieces. What the pieces are is stated
  for the shapes the program splits, by `Text.SplitThree` and
  `Text.SplitWithoutSep`.
- Views.FlattenEntry: its contract bounds the length and states the key.
  Which events become items is stated by `Views.FlattenEntryMembers`. That
  they keep the list order is stated by `Views.FlattenEntryAppend`.
- Ui.OpenUpcoming: it reads the clicked key with the corrected
  `DateKeys.ParseDateKey`. The source's click handler uses `parseDateKey`
  as written. The two differ only on keys of negative years (see Findings),
  and `Ui.UpcomingKeysAreDates` shows every key the list offers reads as a
  real day.
- DateKeys.ParseDateKeyAsWritten: its contract states only the reading of a
  leading hyphen. Its reading of keys from years 0 on is stated by
  `DateKeys.AsWrittenRoundTrip`.
- Text.NumberOf: reads only optionally signed decimal integers after
  trimming. `Number` also accepts fractions, exponents, hex and `Infinity`,
  and those are read as `NaN` here. Its contract covers blank strings and
  unsigned numerals, the forms `dateKey` and the time input produce. Signed
  forms are in the definition only.
- Text.LexLe: `localeCompare` is modelled as lexicographic order of Unicode
  scalar values, which is what Dafny's `char` holds. On the fixed-width ASCII
  `HH:MM` strings the time input produces, this agrees with UTF-16 code-unit
  order and with `localeCompare`. Other strings are not modelled.
- Dates.DaysInMonth: requires a month index 0..11. The source would normalise
  other indexes, but every caller passes 0..11.
- Ui.Apply: inputs no control can produce leave the state unchanged. These are
  a padding cell, a month outside the dropdown, a clock that is not a real day,
  an upcoming key that is not a date, or a list button with no date selected.
  The source has no such guard. `Ui.UpcomingKeysAreDates` shows that the
  upcoming guard always passes.
- Defaults such as `ev.time || ""`, `!!ev.completed` and
  `eventObj.title || ""` are identities here. Stored fields are always
  strings and booleans in this model.

## Findings

| source | as written | input that shows it | evidently intended | confidence | as-written member | corrected member |
|---|---|---|---|---|---|---|
| calendar.js:122-130 | `new Date(year, monthIndex + 1, 0)` and `new Date(year, monthIndex, 1)` read the years 0..99 as 1900..1999 | `daysInMonth(0, 1)` is 28 and `firstDayOfMonth(50, 0)` is 0; reachable by pressing "previous month" past year 100 | February of year 0, a leap year, has 29 days; 1 January of year 50 was a Saturday (6) | not executed; follows from the `Date` constructor's two-digit-year rule | Dates.TwoDigitYearCounterexample | Dates.DayZeroIsLastDay |
| calendar.js:107-111 | `key.split("-")` also splits at the minus sign of a negative year | the key "-5-01-01" of 1 January of year -5 reads back as year 0, month index 4, day 1 | every key reads back to its own date | not executed; follows from `split` and `Number("") === 0` | DateKeys.NegativeYearCounterexample | DateKeys.KeyRoundTrip |

The grid, the per-date list, the upcoming list and a click on an upcoming
item (`Ui.OpenUpcoming`, where calendar.js:625 calls `parseDateKey`) use the
corrected definitions of this model: `Dates.DaysInMonth`,
`Dates.FirstDayOfMonth` and `DateKeys.ParseDateKey`.

=== FILE: datekeys.dfy ===
/** The `YYYY-MM-DD` date keys that group events in the store (the extended
    calendar-date format of section 4.1.2.2 of ISO 8601:2004, except that the
    year is written without padding): `dateKey` and `parseDateKey`. */
module DateKeys {
  import opened Wrappers
  import opened Text
  import opened Dates
  import opened Seqs

  /** `dateKey(year, monthIndex, day)`: the year as written by `String`, then
      the 1-based month and the day, each padded to two digits, joined by
      hyphens. */
  function DateKey(d: Date): (r: string)
    ensures |r| > 0 && (r[0] == '-' <==> d.year < 0)
  {
    IntToString(d.year) + "-" + PadStart2(IntToString(d.monthIndex + 1)) + "-" + PadStart2(IntToString(d.day))
  }

  /** `parseDateKey` as calendar.js writes it: split at every hyphen and read
      the first three pieces as numbers. A missing piece is `undefined` and
      reads as NaN; a result with a NaN field is `None`. A leading hyphen
      is taken for a separator, so the year of such a key always reads as
      `Number("")`, which is 0. */
  function ParseDateKeyAsWritten(key: string): (r: Option<Date>)
    ensures |key| > 0 && key[0] == '-' && r.Some? ==> r.value.year == 0
  {
    var parts := Split(key, '-');
    if |parts| < 3 then None
    else
      match (NumberOf(parts[0]), NumberOf(parts[1]), NumberOf(parts[2]))
      case (Some(y), Some(m), Some(d)) => Some(Date(y, m - 1, d))
      case _ => None
  }

  /** The corrected reading: a leading hyphen is the sign of the year, not a
      separator. Every other key is read as before. */
  function ParseDateKey(key: string): (r: Option<Date>)
    ensures |key| > 0 && key[0] != '-' ==> r == ParseDateKeyAsWritten(key)
  {
    if |key| > 0 && key[0] == '-' then
      match ParseDateKeyAsWritten(key[1..])
      case Some(d) => Some(Date(-d.year, d.monthIndex, d.day))
      case None => None
    else ParseDateKeyAsWritten(key)
  }

  /** Three hyphen-free numerals joined by hyphens read back as a date. */
  lemma {:induction false} ParseJoined(a: string, b: string, c: string, y: int, m: int, d: int)
    requires '-' !in a && '-' !in b && '-' !in c
    requires NumberOf(a) == Some(y) && NumberOf(b) == Some(m) && NumberOf(c) == Some(d)
    ensures ParseDateKeyAsWritten(a + ['-'] + b + ['-'] + c) == Some(Date(y, m - 1, d))
  {
    SplitThree(a, b, c, '-');
  }

  /** For years from 0 on, the code as written reads every key back. */
  lemma {:induction false} AsWrittenRoundTrip(d: Date)
    requires d.year >= 0 && d.monthIndex >= 0 && d.day >= 0
    ensures ParseDateKeyAsWritten(DateKey(d)) == Some(d)
  {
    var y, m, dd := Digits(d.year), PadStart2(Digits(d.monthIndex + 1)), PadStart2(Digits(d.day));
    NoHyphenInDigits(d.year);
    NoHyphenInDigits(d.monthIndex + 1);
    NoHyphenInDigits(d.day);
    NumberOfDigits(d.year);
    NumberOfPaddedDigits(d.monthIndex + 1);
    NumberOfPaddedDigits(d.day);
    ParseJoined(y, m, dd, d.year, d.monthIndex + 1, d.day);
    assert DateKey(d) == y + ['-'] + m + ['-'] + dd;
  }

  lemma {:induction false} NoHyphenInDigits(n: nat)
    ensures '-' !in Digits(n) && '-' !in PadStart2(Digits(n))
  {
    NotInDigits(Digits(n), '-');
    NotInDigits(PadStart2(Digits(n)), '-');
  }

  /** Key round trip: every date with a non-negative month index and day,
      in any year, is read back from its key. */
  lemma {:induction false} KeyRoundTrip(d: Date)
    requires d.monthIndex >= 0 && d.day >= 0
    ensures ParseDateKey(DateKey(d)) == Some(d)
  {
    if d.year >= 0 {
      NonNegativeRoundTrip(d);
    } else {
      NegativeRoundTrip(d);
    }
  }

  lemma {:induction false} NonNegativeRoundTrip(d: Date)
    requires d.year >= 0 && d.monthIndex >= 0 && d.day >= 0
    ensures ParseDateKey(DateKey(d)) == Some(d)
  {
    KeyOfNonNegativeYear(d);
    AsWrittenRoundTrip(d);
  }

  lemma {:induction false} NegativeRoundTrip(d: Date)
    requires d.year < 0 && d.monthIndex >= 0 && d.day >= 0
    ensures ParseDateKey(DateKey(d)) == Some(d)
  {
    var e := Date(-d.year, d.monthIndex, d.day);
    KeyOfNegativeYear(d);
    AsWrittenRoundTrip(e);
    ParseSigned(DateKey(d), e);
  }

  lemma {:induction false} ParseSigned(key: string, e: Date)
    requires |key| > 0 && key[0] == '-'
    requires ParseDateKeyAsWritten(key[1..]) == Some(e)
    ensures ParseDateKey(key) == Some(Date(-e.year, e.monthIndex, e.day))
  {
  }

  lemma {:induction false} KeyOfNonNegativeYear(d: Date)
    requires d.year >= 0
    ensures |DateKey(d)| > 0 && DateKey(d)[0] != '-'
  {
  }

  /** The key of a negative year is a hyphen followed by the key of the
      opposite year. */
  lemma {:induction false} KeyOfNegativeYear(d: Date)
    requires d.year < 0
    ensures |DateKey(d)| > 0 && DateKey(d)[0] == '-'
    ensures DateKey(d)[1..] == DateKey(Date(-d.year, d.monthIndex, d.day))
  {
    var e := Date(-d.year, d.monthIndex, d.day);
    NegativeKeyPrefix(d);
    TailOfCons('-', DateKey(e));
  }

  lemma NegativeKeyPrefix(d: Date)
    requires d.year < 0
    ensures DateKey(d) == "-" + DateKey(Date(-d.year, d.monthIndex, d.day))
  {
    var y, m, dd := IntToString(-d.year), PadStart2(IntToString(d.monthIndex + 1)), PadStart2(IntToString(d.day));
    assert IntToString(d.year) == "-" + y;
    PrependToJoin("-", y, "-", m, "-", dd);
  }

  /** Different dates have different keys. */
  lemma {:induction false} DateKeyInjective(a: Date, b: Date)
    requires a.monthIndex >= 0 && a.day >= 0 && b.monthIndex >= 0 && b.day >= 0
    requires DateKey(a) == DateKey(b)
    ensures a == b
  {
    KeyRoundTrip(a);
    KeyRoundTrip(b);
  }

  /** For a real day the month and the day take exactly two digits each, so a
      key is the year, a hyphen, two digits, a hyphen and two digits. */
  lemma {:induction false} KeyShape(d: Date)
    requires ValidDate(d)
    ensures var k, y := DateKey(d), IntToString(d.year);
      && |k| == |y| + 6 && k[..|y|] == y
      && k[|y|] == '-' && k[|y| + 3] == '-'
      && IsDigit(k[|y| + 1]) && IsDigit(k[|y| + 2]) && IsDigit(k[|y| + 4]) && IsDigit(k[|y| + 5])
  {
    var m, dd := PadStart2(Digits(d.monthIndex + 1)), PadStart2(Digits(d.day));
    assert |m| == 2 && |dd| == 2;
    assert AllDigits(m) by {
      assert AllDigits(Digits(d.monthIndex + 1));
    }
    assert AllDigits(dd) by {
      assert AllDigits(Digits(d.day));
    }
  }

  /** A negative year defeats the code as written: the key of 1 January of
      year -5 is "-5-01-01", which it reads as 1 May of year 0. The
      corrected reading gets the date back. */
  lemma NegativeYearCounterexample()
    ensures DateKey(Date(-5, 0, 1)) == "-5-01-01"
    ensures ParseDateKeyAsWritten("-5-01-01") == Some(Date(0, 4, 1))
    ensures ParseDateKey("-5-01-01") == Some(Date(-5, 0, 1))
  {
    NegativeKeyText();
    NegativeKeyAsWritten();
    KeyRoundTrip(Date(-5, 0, 1));
  }

  lemma NegativeKeyText()
    ensures DateKey(Date(-5, 0, 1)) == "-5-01-01"
  {
    assert Digits(5) == "5" && Digits(1) == "1";
  }

  lemma NegativeKeyAsWritten()
    ensures ParseDateKeyAsWritten("-5-01-01") == Some(Date(0, 4, 1))
  {
    NegativeKeySplit();
    NegativeKeyNumbers();
  }

  lemma NegativeKeySplit()
    ensures Split("-5-01-01", '-') == ["", "5", "01", "01"]
  {
    var rest := "5" + ['-'] + "01" + ['-'] + "01";
    assert "-5-01-01" == "" + ['-'] + rest;
    SplitAtFirstSep("", '-', rest);
    SplitThree("5", "01", "01", '-');
  }

  lemma NegativeKeyNumbers()
    ensures NumberOf("") == Some(0) && NumberOf("5") == Some(5) && NumberOf("01") == Some(1)
  {
    assert Trim("") == "";
    NumberOfFive();
    NumberOfPaddedOne();
  }

  lemma NumberOfFive()
    ensures NumberOf("5") == Some(5)
  {
    assert Digits(5) == "5";
    NumberOfDigits(5);
  }

  lemma NumberOfPaddedOne()
    ensures NumberOf("01") == Some(1)
  {
    assert PadStart2(Digits(1)) == "01";
    NumberOfPaddedDigits(1);
  }
}

=== FILE: dates.dfy ===
/** Calendar arithmetic over the proleptic Gregorian calendar (the leap-year
    rule of section 3.2.1 of ISO 8601:2004, extended to every integer year).
    Month indexes run 0..11 as in JavaScript's `Date`; weekdays run 0
    (Sunday) .. 6 (Saturday). Days are counted from 0000-01-01, which was a
    Saturday. */
module Dates {
  import opened Text

  /** A `{ year, monthIndex, day }` triple. */
  datatype Date = Date(year: int, monthIndex: int, day: int)

  predicate ValidMonth(m: int) {
    0 <= m < 12
  }

  /** Divisible by 4, and not by 100 unless also by 400. */
  predicate IsLeapYear(y: int) {
    y % 4 == 0 && (y % 100 != 0 || y % 400 == 0)
  }

  /** The number of days in month `m` of year `y`. */
  function DaysInMonth(y: int, m: int): (r: int)
    requires ValidMonth(m)
    ensures 28 <= r <= 31
    ensures m == 1 ==> (r == 29 <==> IsLeapYear(y))
    ensures m == 1 && !IsLeapYear(y) ==> r == 28
    ensures r == 30 <==> m == 3 || m == 5 || m == 8 || m == 10
    ensures r == 31 <==> m != 1 && m != 3 && m != 5 && m != 8 && m != 10
  {
    if m == 1 then (if IsLeapYear(y) then 29 else 28)
    else if m == 3 || m == 5 || m == 8 || m == 10 then 30
    else 31
  }

  /** A triple that names a real day. */
  predicate ValidDate(d: Date) {
    ValidMonth(d.monthIndex) && 1 <= d.day <= DaysInMonth(d.year, d.monthIndex)
  }

  /** The number of days from 0000-01-01 to the first day of year `y`
      (negative for years before 0): 365 per year plus one per leap year in
      between. */
  function YearStart(y: int): int {
    365 * y + (y + 3) / 4 - (y + 99) / 100 + (y + 399) / 400
  }

  /** The number of days in year `y` before the first day of month `m`. */
  function DaysBeforeMonth(y: int, m: int): (r: int)
    requires 0 <= m <= 12
    ensures 0 <= r <= 31 * m
  {
    if m == 0 then 0 else DaysBeforeMonth(y, m - 1) + DaysInMonth(y, m - 1)
  }

  /** The day number of `(y, m, d)`, with JavaScript `Date`'s normalisation:
      a month index outside 0..11 moves into the neighbouring years and a day
      outside the month moves into the neighbouring months, so day 0 is the
      day before the first. */
  function DayNumber(y: int, m: int, d: int): int {
    var yy := y + m / 12;
    YearStart(yy) + DaysBeforeMonth(yy, m % 12) + d - 1
  }

  /** The weekday of `(y, m, d)`, 0 for Sunday. */
  function Weekday(y: int, m: int, d: int): (r: int)
    ensures 0 <= r < 7
  {
    (DayNumber(y, m, d) + 6) % 7
  }

  /** `firstDayOfMonth`: the weekday of the first day of the month. */
  function FirstDayOfMonth(y: int, m: int): (r: int)
    requires ValidMonth(m)
    ensures 0 <= r <= 6
  {
    (DayNumber(y, m, 1) + 6) % 7
  }

  // ---------------------------------------------------------------------
  // Facts about the day count

  /** The number of days before each month of a common year; a leap year adds
      one from March on. */
  const CommonMonthStarts: seq<int> := [0, 31, 59, 90, 120, 151, 181, 212, 243, 273, 304, 334, 365]

  lemma {:induction false} DaysBeforeMonthTable(y: int, m: int)
    requires 0 <= m <= 12
    ensures DaysBeforeMonth(y, m) == CommonMonthStarts[m] + if m >= 2 && IsLeapYear(y) then 1 else 0
  {
    if m > 0 {
      DaysBeforeMonthTable(y, m - 1);
    }
  }

  /** A year has 366 days in a leap year and 365 otherwise. */
  lemma {:induction false} YearLength(y: int)
    ensures DaysBeforeMonth(y, 12) == if IsLeapYear(y) then 366 else 365
  {
    DaysBeforeMonthTable(y, 12);
  }

  /** `(y + k) / k` is `ceil((y + 1) / k)`: it grows by one exactly when `y`
      is a multiple of `k`. Stated for the three divisors of the leap rule. */
  lemma {:induction false} CeilSteps(y: int)
    ensures (y + 4) / 4 - (y + 3) / 4 == if y % 4 == 0 then 1 else 0
    ensures (y + 100) / 100 - (y + 99) / 100 == if y % 100 == 0 then 1 else 0
    ensures (y + 400) / 400 - (y + 399) / 400 == if y % 400 == 0 then 1 else 0
  {
    CeilStep4(y);
    CeilStep100(y);
    CeilStep400(y);
  }

  lemma CeilStep4(y: int)
    ensures (y + 4) / 4 - (y + 3) / 4 == if y % 4 == 0 then 1 else 0
  {
    var q, r := y / 4, y % 4;
    assert y == 4 * q + r && 0 <= r < 4;
    assert (y + 4) / 4 == q + 1;
    assert (y + 3) / 4 == if r == 0 then q else q + 1;
  }

  lemma CeilStep100(y: int)
    ensures (y + 100) / 100 - (y + 99) / 100 == if y % 100 == 0 then 1 else 0
  {
    var q, r := y / 100, y % 100;
    assert y == 100 * q + r && 0 <= r < 100;
    assert (y + 100) / 100 == q + 1;
    assert (y + 99) / 100 == if r == 0 then q else q + 1;
  }

  lemma CeilStep400(y: int)
    ensures (y + 400) / 400 - (y + 399) / 400 == if y % 400 == 0 then 1 else 0
  {
    var q, r := y / 400, y % 400;
    assert y == 400 * q + r && 0 <= r < 400;
    assert (y + 400) / 400 == q + 1;
    assert (y + 399) / 400 == if r == 0 then q else q + 1;
  }

  /** The closed formula for the start of a year agrees with adding up the
      lengths of the months. */
  lemma {:induction false} YearStartStep(y: int)
    ensures YearStart(y + 1) == YearStart(y) + DaysBeforeMonth(y, 12)
  {
    YearLength(y);
    CeilSteps(y);
    DivisorChain(y);
    var c4, c100, c400 := (y + 4) / 4 - (y + 3) / 4, (y + 100) / 100 - (y + 99) / 100, (y + 400) / 400 - (y + 399) / 400;
    assert YearStart(y + 1) - YearStart(y) == 365 + c4 - c100 + c400;
    assert c4 - c100 + c400 == if IsLeapYear(y) then 1 else 0;
  }

  /** A multiple of 400 is a multiple of 100, and that of 4. */
  lemma DivisorChain(y: int)
    ensures y % 400 == 0 ==> y % 100 == 0
    ensures y % 100 == 0 ==> y % 4 == 0
  {
    if y % 400 == 0 {
      MultipleOf(y / 400 * 4, 100);
    }
    if y % 100 == 0 {
      MultipleOf(y / 100 * 25, 4);
    }
  }

  lemma MultipleOf(j: int, k: int)
    requires k == 4 || k == 100
    ensures (j * k) % k == 0
  {
  }

  /** Month overflow in `DayNumber`: month 12 of year `y` is month 0 of the
      next year. */
  lemma {:induction false} DayNumberMonthTwelve(y: int, d: int)
    ensures DayNumber(y, 12, d) == DayNumber(y + 1, 0, d)
    ensures DayNumber(y, 12, d) == DayNumber(y, 11, d + DaysInMonth(y, 11))
  {
    YearStartStep(y);
  }

  /** The source computes a month's length as the date of day 0 of the next
      month. That day is the last day of the month: the `DaysInMonth(y, m)`th. */
  lemma {:induction false} DayZeroIsLastDay(y: int, m: int)
    requires ValidMonth(m)
    ensures DayNumber(y, m + 1, 0) == DayNumber(y, m, DaysInMonth(y, m))
    ensures DayNumber(y, m + 1, 1) - DayNumber(y, m, 1) == DaysInMonth(y, m)
  {
    if m == 11 {
      DayNumberMonthTwelve(y, 0);
    } else {
      DayZeroWithinYear(y, m);
    }
  }

  lemma DayZeroWithinYear(y: int, m: int)
    requires 0 <= m < 11
    ensures DayNumber(y, m + 1, 0) == DayNumber(y, m, DaysInMonth(y, m))
    ensures DayNumber(y, m + 1, 1) - DayNumber(y, m, 1) == DaysInMonth(y, m)
  {
    assert (m + 1) / 12 == 0 && (m + 1) % 12 == m + 1;
    assert m / 12 == 0 && m % 12 == m;
    assert DaysBeforeMonth(y, m + 1) == DaysBeforeMonth(y, m) + DaysInMonth(y, m);
  }

  /** The first weekday of the next month follows from this month's first
      weekday and length; December rolls into January of the next year. */
  lemma {:induction false} NextMonthFirstWeekday(y: int, m: int)
    requires ValidMonth(m)
    ensures var (ny, nm) := if m == 11 then (y + 1, 0) else (y, m + 1);
      FirstDayOfMonth(ny, nm) == (FirstDayOfMonth(y, m) + DaysInMonth(y, m)) % 7
  {
    NextMonthStart(y, m);
    ModShift(DayNumber(y, m, 1) + 6, DaysInMonth(y, m));
  }

  /** The next month starts `DaysInMonth` days after this one. */
  lemma NextMonthStart(y: int, m: int)
    requires ValidMonth(m)
    ensures var (ny, nm) := if m == 11 then (y + 1, 0) else (y, m + 1);
      DayNumber(ny, nm, 1) == DayNumber(y, m, 1) + DaysInMonth(y, m)
  {
    DayZeroIsLastDay(y, m);
    if m == 11 {
      DayNumberMonthTwelve(y, 1);
    }
  }

  lemma {:induction false} ModShift(a: int, b: int)
    ensures (a + b) % 7 == (a % 7 + b) % 7
  {
    var q := a / 7;
    assert a == 7 * q + a % 7;
    assert a + b == 7 * q + (a % 7 + b);
  }

  /** Dates the day count separates are different dates: inside a month the
      day number is one more per day. */
  lemma {:induction false} DayNumberWithinMonth(y: int, m: int, d1: int, d2: int)
    requires ValidMonth(m)
    ensures DayNumber(y, m, d2) - DayNumber(y, m, d1) == d2 - d1
  {
  }

  /** Day `d` of a month falls `d - 1` weekdays after its first day, so the
      grid that starts the first day in column `FirstDayOfMonth` puts every
      day under its own weekday. */
  lemma {:induction false} WeekdayOfDay(y: int, m: int, d: int)
    requires ValidMonth(m)
    ensures Weekday(y, m, d) == (FirstDayOfMonth(y, m) + d - 1) % 7
  {
    DayNumberWithinMonth(y, m, 1, d);
    ModShift(DayNumber(y, m, 1) + 6, d - 1);
  }

  /** Known weekdays: 1970-01-01 was a Thursday, 2000-01-01 a Saturday,
      2024-02-01 a Thursday and 2026-10-01 a Thursday. */
  lemma KnownWeekdays()
    ensures FirstDayOfMonth(1970, 0) == 4
    ensures FirstDayOfMonth(2000, 0) == 6
    ensures FirstDayOfMonth(2024, 1) == 4
    ensures FirstDayOfMonth(2026, 9) == 4
  {
    Weekday1970();
    Weekday2000();
    Weekday2024();
    Weekday2026();
  }

  lemma Weekday1970()
    ensures FirstDayOfMonth(1970, 0) == 4
  {
    assert YearStart(1970) == 719528;
  }

  lemma Weekday2000()
    ensures FirstDayOfMonth(2000, 0) == 6
  {
    assert YearStart(2000) == 730485;
  }

  lemma Weekday2024()
    ensures FirstDayOfMonth(2024, 1) == 4
  {
    assert YearStart(2024) == 739251;
    DaysBeforeMonthTable(2024, 1);
  }

  lemma Weekday2026()
    ensures FirstDayOfMonth(2026, 9) == 4
  {
    assert YearStart(2026) == 739982;
    DaysBeforeMonthTable(2026, 9);
  }

  /** Month lengths for the leap-year cases the calendar must get right. */
  lemma KnownMonthLengths()
    ensures DaysInMonth(2024, 1) == 29
    ensures DaysInMonth(2023, 1) == 28
    ensures DaysInMonth(2000, 1) == 29
    ensures DaysInMonth(1900, 1) == 28
  {
  }

  // ---------------------------------------------------------------------
  // Today and labels

  /** `isToday`, with the current local date passed in. */
  function IsToday(d: Date, today: Date): (r: bool)
    ensures r <==> d.year == today.year && d.monthIndex == today.monthIndex && d.day == today.day
  {
    d == today
  }

  const MonthNames: seq<string> := [
    "January", "February", "March", "April", "May", "June",
    "July", "August", "September", "October", "November", "December"
  ]

  /** `formatLongDate`: "MonthName Day, Year". */
  function FormatLongDate(d: Date): (r: string)
    requires ValidMonth(d.monthIndex)
  {
    MonthNames[d.monthIndex] + " " + IntToString(d.day) + ", " + IntToString(d.year)
  }

  /** Different dates get different labels: the month name is read up to the
      first space, the day up to the comma, and the rest is the year. */
  lemma {:induction false} FormatLongDateInjective(a: Date, b: Date)
    requires ValidMonth(a.monthIndex) && ValidMonth(b.monthIndex)
    requires a.day >= 0 && b.day >= 0
    requires FormatLongDate(a) == FormatLongDate(b)
    ensures a == b
  {
    var na, nb := MonthNames[a.monthIndex], MonthNames[b.monthIndex];
    var da, db := IntToString(a.day), IntToString(b.day);
    var ya, yb := IntToString(a.year), IntToString(b.year);
    LabelParts(a);
    LabelParts(b);
    JoinedAtSeparator(na, ' ', da + [','] + (" " + ya), nb, db + [','] + (" " + yb));
    JoinedAtSeparator(da, ',', " " + ya, db, " " + yb);
    assert ya == (" " + ya)[1..] && yb == (" " + yb)[1..];
    IntToStringInjective(a.day, b.day);
    IntToStringInjective(a.year, b.year);
    MonthNamesDistinct(a.monthIndex, b.monthIndex);
  }

  lemma {:induction false} LabelParts(d: Date)
    requires ValidMonth(d.monthIndex) && d.day >= 0
    ensures var n, dd, y := MonthNames[d.monthIndex], IntToString(d.day), IntToString(d.year);
      && ' ' !in n && ',' !in dd
      && FormatLongDate(d) == n + [' '] + (dd + [','] + (" " + y))
  {
    var n, dd := MonthNames[d.monthIndex], IntToString(d.day);
    assert ' ' !in n;
    assert AllDigits(dd);
  }

  lemma {:induction false} MonthNamesDistinct(m1: int, m2: int)
    requires ValidMonth(m1) && ValidMonth(m2)
    requires MonthNames[m1] == MonthNames[m2]
    ensures m1 == m2
  {
  }

  // ---------------------------------------------------------------------
  // The two-digit-year reading of `new Date(year, ...)`

  /** The year `new Date(y, m, d)` actually uses: the constructor reads a
      year 0..99 as 1900 + y. */
  function JsFullYear(y: int): int {
    if 0 <= y <= 99 then 1900 + y else y
  }

  /** `daysInMonth` as calendar.js computes it: the day of the month of
      `new Date(y, m + 1, 0)`, the day before the first of the next month. */
  function DaysInMonthAsWritten(y: int, m: int): (r: int)
    requires ValidMonth(m)
    ensures r == DaysInMonth(JsFullYear(y), m)
  {
    var jy := JsFullYear(y);
    DayZeroIsLastDay(jy, m);
    DayNumber(jy, m + 1, 0) - DayNumber(jy, m, 0)
  }

  /** `firstDayOfMonth` as calendar.js computes it: `new Date(y, m, 1).getDay()`. */
  function FirstDayOfMonthAsWritten(y: int, m: int): (r: int)
    requires ValidMonth(m)
    ensures 0 <= r <= 6
    ensures r == FirstDayOfMonth(JsFullYear(y), m)
  {
    Weekday(JsFullYear(y), m, 1)
  }

  /** Outside the years 0..99 the code computes the proleptic Gregorian
      answers. */
  lemma {:induction false} AsWrittenAgreesOutsideTwoDigitYears(y: int, m: int)
    requires ValidMonth(m)
    requires y < 0 || y > 99
    ensures DaysInMonthAsWritten(y, m) == DaysInMonth(y, m)
    ensures FirstDayOfMonthAsWritten(y, m) == FirstDayOfMonth(y, m)
  {
  }

  /** Inside them it does not: year 0 is a leap year, but the code reports
      February 0000 as 28 days long because it measures February 1900; and
      it starts January 0050 on the weekday of January 1950. */
  lemma TwoDigitYearCounterexample()
    ensures DaysInMonthAsWritten(0, 1) == 28
    ensures DaysInMonth(0, 1) == 29
    ensures FirstDayOfMonthAsWritten(50, 0) == 0
    ensures FirstDayOfMonth(50, 0) == 6
  {
    assert JsFullYear(0) == 1900 && JsFullYear(50) == 1950;
    assert YearStart(1950) == 712223;
    assert YearStart(50) == 18263;
    assert DayNumber(1950, 0, 1) == 712223;
    assert DayNumber(50, 0, 1) == 18263;
  }
}

=== FILE: grid.dfy ===
/** `renderCalendar` without the DOM: the month grid as 42 cell
    descriptors, six rows of seven days starting on Sunday. */
module Grid {
  import opened Wrappers
  import opened Dates
  import opened DateKeys
  import opened Store

  const CellCount := 42

  /** A padding cell outside the month, or a day of the month with its
      outlines and its event dot. */
  datatype Cell = Padding | Day(day: int, isToday: bool, isSelected: bool, hasEvents: bool)

  /** Cell `i` of the grid of a month whose first day falls on weekday
      `first` and which has `total` days. */
  function CellAt(year: int, month: int, i: int, first: int, total: int, snap: Snapshot, selected: Option<Date>, today: Date): (c: Cell)
    ensures c.Padding? <==> i - first + 1 < 1 || i - first + 1 > total
    ensures c.Day? ==> var d := Date(year, month, c.day);
      && c.day == i - first + 1
      && (c.isToday <==> d == today)
      && (c.isSelected <==> selected == Some(d))
      && (c.hasEvents <==> |Lookup(snap, DateKey(d))| > 0)
  {
    var day := i - first + 1;
    if day < 1 || day > total then Padding
    else
      var d := Date(year, month, day);
      Day(day, IsToday(d, today), selected.Some? && selected.value == d, |Lookup(snap, DateKey(d))| > 0)
  }

  /** The grid of `month` of `year`: always 42 cells; cell `i` shows day
      `i - first + 1` when that is a day of the month and is padding
      otherwise. */
  function Render(year: int, month: int, snap: Snapshot, selected: Option<Date>, today: Date): (cells: seq<Cell>)
    requires ValidMonth(month)
    ensures |cells| == CellCount
    ensures forall i :: 0 <= i < CellCount ==>
      var day := i - FirstDayOfMonth(year, month) + 1;
      && (cells[i].Padding? <==> day < 1 || day > DaysInMonth(year, month))
      && (cells[i].Day? ==> cells[i].day == day && ValidDate(Date(year, month, day)))
    ensures forall i :: 0 <= i < CellCount && cells[i].Day? ==>
      var d := Date(year, month, cells[i].day);
      && (cells[i].isToday <==> d == today)
      && (cells[i].isSelected <==> selected == Some(d))
      && (cells[i].hasEvents <==> |Lookup(snap, DateKey(d))| > 0)
      && (Valid(snap) ==> (cells[i].hasEvents <==> HasKey(snap, DateKey(d))))
  {
    var first, total := FirstDayOfMonth(year, month), DaysInMonth(year, month);
    seq(CellCount, i requires 0 <= i < CellCount => CellAt(year, month, i, first, total, snap, selected, today))
  }

  /** The day numbers of the non-padding cells, in grid order. */
  function DayNumbers(cells: seq<Cell>): seq<int> {
    if |cells| == 0 then []
    else
      var last := cells[|cells| - 1];
      DayNumbers(cells[..|cells| - 1]) + if last.Day? then [last.day] else []
  }

  /** The integers `lo` to `hi - 1` in increasing order. */
  function Range(lo: int, hi: int): (r: seq<int>)
    ensures |r| == if lo <= hi then hi - lo else 0
    ensures forall i :: 0 <= i < |r| ==> r[i] == lo + i
    decreases hi - lo
  {
    if lo >= hi then [] else Range(lo, hi - 1) + [hi - 1]
  }

  /** The day cells, read in order, are exactly the days 1, 2, ...,
      `DaysInMonth` of the month: the grid neither skips nor repeats a
      day. */
  lemma DaysInOrder(year: int, month: int, snap: Snapshot, selected: Option<Date>, today: Date)
    requires ValidMonth(month)
    ensures DayNumbers(Render(year, month, snap, selected, today)) == Range(1, DaysInMonth(year, month) + 1)
  {
    var cells := Render(year, month, snap, selected, today);
    var first, total := FirstDayOfMonth(year, month), DaysInMonth(year, month);
    PrefixDays(cells, first, total, CellCount);
    assert cells[..CellCount] == cells;
  }

  /** The days shown by the first `j` cells of a grid laid out from weekday
      `first`: 1 up to the number of days those cells reach. */
  lemma {:induction false} PrefixDays(cells: seq<Cell>, first: int, total: int, j: int)
    requires 0 <= first <= 6 && 0 <= total && first + total <= |cells|
    requires 0 <= j <= |cells|
    requires forall i :: 0 <= i < |cells| ==>
      var day := i - first + 1;
      && (cells[i].Padding? <==> day < 1 || day > total)
      && (cells[i].Day? ==> cells[i].day == day)
    ensures DayNumbers(cells[..j]) == Range(1, Clamp(j - first, total) + 1)
  {
    if j > 0 {
      PrefixDays(cells, first, total, j - 1);
      assert cells[..j][..j - 1] == cells[..j - 1];
      var c := cells[j - 1];
      if c.Day? {
        assert c.day == j - first;
        assert Clamp(j - first, total) == Clamp(j - 1 - first, total) + 1;
      } else {
        assert Clamp(j - first, total) == Clamp(j - 1 - first, total);
      }
    }
  }

  function Clamp(n: int, hi: int): int {
    if n < 0 then 0 else if n > hi then hi else n
  }

  /** The grid outlines the selected date exactly when it lies in this
      month, and then in exactly one cell: the cell of its day. */
  lemma SelectedCell(year: int, month: int, snap: Snapshot, selected: Option<Date>, today: Date)
    requires ValidMonth(month)
    ensures var cells := Render(year, month, snap, selected, today);
      && (forall i, j :: 0 <= i < j < |cells| && cells[i].Day? && cells[j].Day? ==> !(cells[i].isSelected && cells[j].isSelected))
      && ((exists i :: 0 <= i < |cells| && cells[i].Day? && cells[i].isSelected) <==>
          selected.Some? && selected.value.year == year && selected.value.monthIndex == month
          && 1 <= selected.value.day <= DaysInMonth(year, month))
  {
    var cells := Render(year, month, snap, selected, today);
    var first := FirstDayOfMonth(year, month);
    if selected.Some? && selected.value.year == year && selected.value.monthIndex == month
       && 1 <= selected.value.day <= DaysInMonth(year, month) {
      var i := selected.value.day + first - 1;
      assert cells[i].Day? && cells[i].isSelected;
    }
  }

  /** At most one cell is outlined as today, and one is exactly when today
      lies in the month shown. */
  lemma TodayCell(year: int, month: int, snap: Snapshot, selected: Option<Date>, today: Date)
    requires ValidMonth(month)
    ensures var cells := Render(year, month, snap, selected, today);
      && (forall i, j :: 0 <= i < j < |cells| && cells[i].Day? && cells[j].Day? ==> !(cells[i].isToday && cells[j].isToday))
      && ((exists i :: 0 <= i < |cells| && cells[i].Day? && cells[i].isToday) <==>
          today.year == year && today.monthIndex == month && 1 <= today.day <= DaysInMonth(year, month))
  {
    var cells := Render(year, month, snap, selected, today);
    var first := FirstDayOfMonth(year, month);
    if today.year == year && today.monthIndex == month && 1 <= today.day <= DaysInMonth(year, month) {
      var i := today.day + first - 1;
      assert cells[i].Day? && cells[i].isToday;
    }
  }

  /** Every day sits in the column of its weekday: the grid's rows run
      Sunday to Saturday, and cell `i` is in column `i % 7`. */
  lemma DayColumns(year: int, month: int, snap: Snapshot, selected: Option<Date>, today: Date)
    requires ValidMonth(month)
    ensures var cells := Render(year, month, snap, selected, today);
      forall i :: 0 <= i < |cells| && cells[i].Day? ==> i % 7 == Weekday(year, month, cells[i].day)
  {
    var cells := Render(year, month, snap, selected, today);
    forall i | 0 <= i < |cells| && cells[i].Day?
      ensures i % 7 == Weekday(year, month, cells[i].day)
    {
      WeekdayOfDay(year, month, cells[i].day);
    }
  }
}

=== FILE: seqs.dfy ===
/** `Array.prototype.filter` and `slice` on sequences. */
module Seqs {

  /** The elements of `s` that satisfy `p`, in order. */
  function Filter<T(!new)>(p: T -> bool, s: seq<T>): (r: seq<T>)
    ensures |r| <= |s|
    ensures forall x :: x in r <==> x in s && p(x)
    ensures forall i :: 0 <= i < |r| ==> p(r[i])
    ensures multiset(r) <= multiset(s)
    ensures forall x {:trigger multiset(r)[x]} :: multiset(r)[x] == if p(x) then multiset(s)[x] else 0
  {
    if |s| == 0 then []
    else
      assert s == [s[0]] + s[1..];
      if p(s[0]) then [s[0]] + Filter(p, s[1..]) else Filter(p, s[1..])
  }

  /** A filter that every element passes keeps the whole sequence. */
  lemma {:induction false} FilterAll<T(!new)>(p: T -> bool, s: seq<T>)
    requires forall i :: 0 <= i < |s| ==> p(s[i])
    ensures Filter(p, s) == s
  {
    if |s| > 0 {
      FilterAll(p, s[1..]);
    }
  }

  /** Filtering distributes over concatenation. */
  lemma {:induction false} FilterAppend<T(!new)>(p: T -> bool, a: seq<T>, b: seq<T>)
    ensures Filter(p, a + b) == Filter(p, a) + Filter(p, b)
  {
    if |a| == 0 {
      assert a + b == b;
    } else {
      assert (a + b)[1..] == a[1..] + b;
      FilterAppend(p, a[1..], b);
    }
  }

  /** `s.slice(0, n)`: the first `n` elements, or all of them. */
  function Take<T>(s: seq<T>, n: nat): (r: seq<T>)
    ensures |r| == if n < |s| then n else |s|
    ensures r == s[..|r|]
  {
    if n < |s| then s[..n] else s
  }

  /** Prepending to a sequence joined from five pieces joins six. */
  lemma PrependToJoin<T>(x: seq<T>, a: seq<T>, b: seq<T>, c: seq<T>, d: seq<T>, e: seq<T>)
    ensures x + a + b + c + d + e == x + (a + b + c + d + e)
  {
  }

  /** Dropping the head of `[x] + s` leaves `s`. */
  lemma TailOfCons<T>(x: T, s: seq<T>)
    ensures ([x] + s)[1..] == s
  {
  }

  /** A non-empty sequence is its head followed by its tail. */
  lemma HeadAndTail<T>(s: seq<T>)
    requires |s| > 0
    ensures [s[0]] + s[1..] == s
  {
  }
}

=== FILE: sorting.dfy ===
/** `Array.prototype.sort` with a consistent comparator: a stable sort. The
    comparator is given as `le(a, b)`, "a may come before b", which must be a
    total preorder; `Sort` is insertion sort, which keeps elements that
    compare equal in their original order. */
module Sorting {
  import opened Seqs

  ghost predicate TotalPreorder<T(!new)>(le: (T, T) -> bool) {
    && (forall a, b :: le(a, b) || le(b, a))
    && (forall a, b, c :: le(a, b) && le(b, c) ==> le(a, c))
  }

  predicate SortedBy<T>(s: seq<T>, le: (T, T) -> bool) {
    forall i, j :: 0 <= i < j < |s| ==> le(s[i], s[j])
  }

  /** Puts `x` in front of the first element it may precede. */
  function Insert<T(!new)>(x: T, s: seq<T>, le: (T, T) -> bool): (r: seq<T>)
    ensures multiset(r) == multiset(s) + multiset{x}
  {
    if |s| == 0 then [x]
    else if le(x, s[0]) then [x] + s
    else
      assert s == [s[0]] + s[1..];
      [s[0]] + Insert(x, s[1..], le)
  }

  /** Inserting into a sorted sequence keeps it sorted. */
  lemma {:induction false} InsertSorted<T(!new)>(x: T, s: seq<T>, le: (T, T) -> bool)
    requires TotalPreorder(le) && SortedBy(s, le)
    ensures SortedBy(Insert(x, s, le), le)
  {
    if |s| > 0 {
      assert s == [s[0]] + s[1..];
      InsertCons(x, s[0], s[1..], le);
      if le(x, s[0]) {
        assert forall j :: 0 < j < |s| ==> le(s[0], s[j]);
      } else {
        var rest := Insert(x, s[1..], le);
        assert SortedBy(s[1..], le);
        InsertSorted(x, s[1..], le);
        assert le(s[0], x);
        forall j | 0 <= j < |rest| ensures le(s[0], rest[j]) {
          assert rest[j] in multiset(rest);
        }
      }
    }
  }

  /** Insertion sort: a permutation of `s`. */
  function Sort<T(!new)>(s: seq<T>, le: (T, T) -> bool): (r: seq<T>)
    ensures multiset(r) == multiset(s)
  {
    if |s| == 0 then []
    else
      assert s == [s[0]] + s[1..];
      Insert(s[0], Sort(s[1..], le), le)
  }

  /** With a total preorder the sort's result is sorted. */
  lemma {:induction false} SortSorted<T(!new)>(s: seq<T>, le: (T, T) -> bool)
    requires TotalPreorder(le)
    ensures SortedBy(Sort(s, le), le)
  {
    if |s| > 0 {
      SortSorted(s[1..], le);
      InsertSorted(s[0], Sort(s[1..], le), le);
    }
  }

  /** Filtering commutes with inserting into a sorted sequence. */
  lemma {:induction false} FilterInsert<T(!new)>(p: T -> bool, x: T, s: seq<T>, le: (T, T) -> bool)
    requires TotalPreorder(le) && SortedBy(s, le)
    ensures Filter(p, Insert(x, s, le)) == if p(x) then Insert(x, Filter(p, s), le) else Filter(p, s)
    decreases |s|, 1
  {
    if |s| == 0 {
      FilterCons(p, x, []);
    } else if le(x, s[0]) {
      FilterHeadBound(p, x, s, le);
      FilterInsertFront(p, x, s, le);
    } else {
      FilterInsertBehind(p, x, s, le);
    }
  }

  /** The case where `x` goes behind the head: by induction on the tail. */
  lemma {:induction false} FilterInsertBehind<T(!new)>(p: T -> bool, x: T, s: seq<T>, le: (T, T) -> bool)
    requires TotalPreorder(le) && SortedBy(s, le)
    requires |s| > 0 && !le(x, s[0])
    ensures Filter(p, Insert(x, s, le)) == if p(x) then Insert(x, Filter(p, s), le) else Filter(p, s)
    decreases |s|, 0
  {
    assert SortedBy(s[1..], le);
    FilterInsert(p, x, s[1..], le);
    FilterInsertLater(p, x, s, le);
  }

  /** An element that may precede the head of a sorted sequence may precede
      the first element any filter keeps. */
  lemma FilterHeadBound<T(!new)>(p: T -> bool, x: T, s: seq<T>, le: (T, T) -> bool)
    requires TotalPreorder(le) && SortedBy(s, le)
    requires |s| > 0 && le(x, s[0])
    ensures |Filter(p, s)| > 0 ==> le(x, Filter(p, s)[0])
  {
    var f := Filter(p, s);
    if |f| > 0 {
      SortedHead(s, le, f[0]);
    }
  }

  /** The case where `x` goes in front. */
  lemma FilterInsertFront<T(!new)>(p: T -> bool, x: T, s: seq<T>, le: (T, T) -> bool)
    requires |s| > 0 && le(x, s[0])
    requires |Filter(p, s)| > 0 ==> le(x, Filter(p, s)[0])
    ensures Filter(p, Insert(x, s, le)) == if p(x) then Insert(x, Filter(p, s), le) else Filter(p, s)
  {
    assert Insert(x, s, le) == [x] + s;
    FilterCons(p, x, s);
    var f := Filter(p, s);
    if p(x) {
      if |f| > 0 {
        assert Insert(x, f, le) == [x] + f;
      } else {
        assert [x] + f == [x];
      }
    }
  }

  /** The case where `x` goes after the head of `s`, given the result for
      the tail. */
  lemma FilterInsertLater<T(!new)>(p: T -> bool, x: T, s: seq<T>, le: (T, T) -> bool)
    requires |s| > 0 && !le(x, s[0])
    requires Filter(p, Insert(x, s[1..], le)) == if p(x) then Insert(x, Filter(p, s[1..]), le) else Filter(p, s[1..])
    ensures Filter(p, Insert(x, s, le)) == if p(x) then Insert(x, Filter(p, s), le) else Filter(p, s)
  {
    var y, t := s[0], s[1..];
    assert Insert(x, s, le) == [y] + Insert(x, t, le);
    assert Filter(p, s) == if p(y) then [y] + Filter(p, t) else Filter(p, t);
    FilterCons(p, y, Insert(x, t, le));
    if p(x) && p(y) {
      InsertCons(x, y, Filter(p, t), le);
    }
  }

  lemma FilterCons<T(!new)>(p: T -> bool, x: T, s: seq<T>)
    ensures Filter(p, [x] + s) == if p(x) then [x] + Filter(p, s) else Filter(p, s)
  {
    assert ([x] + s)[1..] == s;
  }

  lemma InsertCons<T(!new)>(x: T, y: T, s: seq<T>, le: (T, T) -> bool)
    ensures Insert(x, [y] + s, le) == if le(x, y) then [x] + ([y] + s) else [y] + Insert(x, s, le)
  {
    assert ([y] + s)[1..] == s;
  }

  /** The head of a sorted sequence may precede each of its elements. */
  lemma SortedHead<T(!new)>(s: seq<T>, le: (T, T) -> bool, y: T)
    requires TotalPreorder(le) && SortedBy(s, le)
    requires y in s
    ensures le(s[0], y)
  {
    var k :| 0 <= k < |s| && s[k] == y;
    if k == 0 {
      assert le(y, y) || le(y, y);
    }
  }

  /** Filtering before or after a stable sort gives the same sequence; in
      particular a filter keeps the sorted order and the original order of
      ties. */
  lemma {:induction false} FilterSortCommute<T(!new)>(p: T -> bool, s: seq<T>, le: (T, T) -> bool)
    requires TotalPreorder(le)
    ensures Filter(p, Sort(s, le)) == Sort(Filter(p, s), le)
  {
    if |s| > 0 {
      FilterSortCommute(p, s[1..], le);
      SortSorted(s[1..], le);
      FilterInsert(p, s[0], Sort(s[1..], le), le);
    }
  }

  /** Stability: the elements equivalent to `x` (those `p` picks) appear
      in the sorted sequence in the order they had before sorting. */
  lemma {:induction false} SortIsStable<T(!new)>(s: seq<T>, le: (T, T) -> bool, p: T -> bool, x: T)
    requires TotalPreorder(le)
    requires forall y :: p(y) <==> le(x, y) && le(y, x)
    ensures Filter(p, Sort(s, le)) == Filter(p, s)
  {
    FilterSortCommute(p, s, le);
    SortOfEquivalents(Filter(p, s), le);
  }

  /** A sequence whose elements are all equivalent is already sorted, and
      sorting leaves it alone. */
  lemma {:induction false} SortOfEquivalents<T(!new)>(s: seq<T>, le: (T, T) -> bool)
    requires forall i, j :: 0 <= i < |s| && 0 <= j < |s| ==> le(s[i], s[j])
    ensures Sort(s, le) == s
  {
    if |s| > 0 {
      SortOfEquivalents(s[1..], le);
      assert s == [s[0]] + s[1..];
    }
  }

  /** The first `n` elements of a sorted sequence are as many of its
      least elements as there are room for: every element left out may
      follow each one kept. */
  lemma TakeOfSorted<T>(s: seq<T>, le: (T, T) -> bool, n: nat)
    requires SortedBy(s, le)
    ensures var r := Take(s, n);
      && |r| == (if n < |s| then n else |s|)
      && multiset(r) <= multiset(s)
      && (forall x, y :: x in multiset(s) - multiset(r) && y in r ==> le(y, x))
  {
    var r := Take(s, n);
    assert s == r + s[|r|..];
    assert multiset(s) == multiset(r) + multiset(s[|r|..]);
    forall x, y | x in multiset(s) - multiset(r) && y in r ensures le(y, x) {
      assert x in s[|r|..];
      var k :| |r| <= k < |s| && s[k] == x;
      var j :| 0 <= j < |r| && s[j] == y;
    }
  }

  /** `TakeOfSorted` for a sorted permutation `s` of `q`, stated against
      `q`. */
  lemma TakeOfPermutation<T>(q: seq<T>, s: seq<T>, le: (T, T) -> bool, n: nat)
    requires SortedBy(s, le) && multiset(s) == multiset(q)
    ensures var r := Take(s, n);
      && |r| == (if n < |q| then n else |q|)
      && multiset(r) <= multiset(q)
      && (forall x, y :: x in multiset(q) - multiset(r) && y in r ==> le(y, x))
  {
    assert |multiset(s)| == |multiset(q)|;
    TakeOfSorted(s, le, n);
  }
}

=== FILE: store.dfy ===
/** The saved events: one object that maps date keys to lists of events
    (`{ "YYYY-MM-DD": [ { id, title, time, notes, completed, createdAt } ] }`).
    A JavaScript object keeps its string keys in insertion order, so the
    snapshot is an association list: assigning to a present key replaces its
    list in place, assigning to a new key appends an entry, and `delete`
    removes the entry. */
module Store {
  import opened Wrappers
  import opened Seqs

  datatype Event = Event(id: string, title: string, time: string, notes: string, completed: bool, createdAt: int)

  datatype Entry = Entry(key: string, events: seq<Event>)

  type Snapshot = seq<Entry>

  /** The keys in the order an object enumerates them. */
  function Keys(s: Snapshot): (r: seq<string>)
    ensures |r| == |s|
  {
    if |s| == 0 then [] else [s[0].key] + Keys(s[1..])
  }

  predicate HasKey(s: Snapshot, k: string) {
    k in Keys(s)
  }

  /** No key occurs twice, as in any object. */
  predicate KeysDistinct(s: Snapshot) {
    |s| == 0 || (!HasKey(s[1..], s[0].key) && KeysDistinct(s[1..]))
  }

  /** No date keeps an empty list: deleting the last event of a date
      removes the date. */
  predicate NoEmptyLists(s: Snapshot) {
    |s| == 0 || (|s[0].events| > 0 && NoEmptyLists(s[1..]))
  }

  /** What every snapshot the calendar writes satisfies. */
  predicate Valid(s: Snapshot) {
    KeysDistinct(s) && NoEmptyLists(s)
  }

  /** `all[k] || []`. */
  function Lookup(s: Snapshot, k: string): (r: seq<Event>)
    ensures !HasKey(s, k) ==> r == []
    ensures NoEmptyLists(s) ==> (HasKey(s, k) <==> |r| > 0)
  {
    if |s| == 0 then []
    else if s[0].key == k then s[0].events
    else Lookup(s[1..], k)
  }

  /** `all[k] = evs`. */
  function Put(s: Snapshot, k: string, evs: seq<Event>): (r: Snapshot)
    ensures Lookup(r, k) == evs
    ensures forall k' :: k' != k ==> Lookup(r, k') == Lookup(s, k')
    ensures Keys(r) == if HasKey(s, k) then Keys(s) else Keys(s) + [k]
    ensures forall k' :: HasKey(r, k') <==> HasKey(s, k') || k' == k
    ensures KeysDistinct(s) ==> KeysDistinct(r)
    ensures NoEmptyLists(s) && |evs| > 0 ==> NoEmptyLists(r)
  {
    if |s| == 0 then [Entry(k, evs)]
    else if s[0].key == k then [Entry(k, evs)] + s[1..]
    else
      var rest := Put(s[1..], k, evs);
      assert ([s[0]] + rest)[1..] == rest;
      [s[0]] + rest
  }

  /** Every key but `k`. */
  function OtherThan(k: string): string -> bool {
    (k': string) => k' != k
  }

  /** `delete all[k]`: the other keys keep their order. */
  function RemoveKey(s: Snapshot, k: string): (r: Snapshot)
    ensures Keys(r) == Filter(OtherThan(k), Keys(s))
    ensures forall k' :: HasKey(r, k') <==> HasKey(s, k') && k' != k
    ensures forall k' :: k' != k ==> Lookup(r, k') == Lookup(s, k')
    ensures !HasKey(s, k) ==> r == s
  {
    if |s| == 0 then []
    else
      var rest := RemoveKey(s[1..], k);
      RemoveKeyStepKeys(s, k, rest);
      RemoveKeyStepLookup(s, k, rest);
      RemoveKeyStepAbsent(s, k, rest);
      if s[0].key == k then rest else [s[0]] + rest
  }

  /** The keys of a snapshot with one more entry in front. */
  lemma KeysOfCons(e: Entry, s: Snapshot)
    ensures Keys([e] + s) == [e.key] + Keys(s)
    ensures ([e] + s)[1..] == s
  {
    assert ([e] + s)[1..] == s;
  }

  /** The keys of a non-empty snapshot, and the keys other than `k`, peel
      off at the first entry. */
  lemma KeysStep(s: Snapshot, k: string)
    requires |s| > 0
    ensures Keys(s) == [s[0].key] + Keys(s[1..])
    ensures Filter(OtherThan(k), Keys(s)) == (if s[0].key != k then [s[0].key] else []) + Filter(OtherThan(k), Keys(s[1..]))
  {
    assert Keys(s)[1..] == Keys(s[1..]);
  }

  // The recursive step of `RemoveKey`, one property at a time.

  lemma RemoveKeyStepKeys(s: Snapshot, k: string, rest: Snapshot)
    requires |s| > 0 && Keys(rest) == Filter(OtherThan(k), Keys(s[1..]))
    ensures var r := if s[0].key == k then rest else [s[0]] + rest;
      && Keys(r) == Filter(OtherThan(k), Keys(s))
      && forall k' :: HasKey(r, k') <==> HasKey(s, k') && k' != k
  {
    KeysStep(s, k);
    KeysOfCons(s[0], rest);
  }

  lemma RemoveKeyStepLookup(s: Snapshot, k: string, rest: Snapshot)
    requires |s| > 0 && forall k' :: k' != k ==> Lookup(rest, k') == Lookup(s[1..], k')
    ensures var r := if s[0].key == k then rest else [s[0]] + rest;
      forall k' :: k' != k ==> Lookup(r, k') == Lookup(s, k')
  {
    KeysOfCons(s[0], rest);
  }

  lemma RemoveKeyStepAbsent(s: Snapshot, k: string, rest: Snapshot)
    requires |s| > 0 && (!HasKey(s[1..], k) ==> rest == s[1..])
    ensures var r := if s[0].key == k then rest else [s[0]] + rest;
      !HasKey(s, k) ==> r == s
  {
    if !HasKey(s, k) {
      HasKeyStep(s, k);
      assert [s[0]] + s[1..] == s;
    }
  }

  /** A non-empty snapshot has a key when its first entry or the rest
      does. */
  lemma HasKeyStep(s: Snapshot, k: string)
    requires |s| > 0
    ensures HasKey(s, k) <==> s[0].key == k || HasKey(s[1..], k)
  {
    assert Keys(s) == [s[0].key] + Keys(s[1..]);
  }

  /** Removing a key keeps the keys distinct and the lists non-empty. */
  lemma {:induction false} RemoveKeyValid(s: Snapshot, k: string)
    ensures Valid(s) ==> Valid(RemoveKey(s, k))
  {
    if |s| > 0 {
      RemoveKeyValid(s[1..], k);
      var rest := RemoveKey(s[1..], k);
      if s[0].key != k {
        assert ([s[0]] + rest)[1..] == rest;
      }
    }
  }

  lemma {:induction false} HasKeyAt(s: Snapshot, i: int)
    requires 0 <= i < |s|
    ensures HasKey(s, s[i].key)
  {
    if i > 0 {
      HasKeyAt(s[1..], i - 1);
      assert Keys(s) == [s[0].key] + Keys(s[1..]);
    }
  }

  /** `list.findIndex((e) => e.id === id)`: the position of the first event
      with that id, or -1. */
  function FindEvent(list: seq<Event>, id: string): (i: int)
    ensures -1 <= i < |list|
    ensures i >= 0 ==> list[i].id == id && forall j :: 0 <= j < i ==> list[j].id != id
    ensures i == -1 <==> forall j :: 0 <= j < |list| ==> list[j].id != id
  {
    if |list| == 0 then -1
    else if list[0].id == id then 0
    else
      var j := FindEvent(list[1..], id);
      if j == -1 then -1 else j + 1
  }

  predicate HasEvent(list: seq<Event>, id: string) {
    exists j :: 0 <= j < |list| && list[j].id == id
  }

  /** The store half of `addEventForSelectedDate`: append the event to the
      list of its date, creating the date when it is new. */
  function Add(s: Snapshot, k: string, ev: Event): (r: Snapshot)
    ensures Lookup(r, k) == Lookup(s, k) + [ev]
    ensures forall k' :: k' != k ==> Lookup(r, k') == Lookup(s, k')
    ensures Keys(r) == if HasKey(s, k) then Keys(s) else Keys(s) + [k]
    ensures Valid(s) ==> Valid(r)
  {
    Put(s, k, Lookup(s, k) + [ev])
  }

  /** The store half of `saveEdit`: replace the title, time and notes of the
      first event with that id, or report that there is none. */
  function Edit(s: Snapshot, k: string, id: string, title: string, time: string, notes: string): (r: Option<Snapshot>)
    ensures r.None? <==> !HasEvent(Lookup(s, k), id)
    ensures r.Some? ==>
      var before, i := Lookup(s, k), FindEvent(Lookup(s, k), id);
      Lookup(r.value, k) == before[i := before[i].(title := title, time := time, notes := notes)]
    ensures r.Some? ==> forall k' :: k' != k ==> Lookup(r.value, k') == Lookup(s, k')
    ensures r.Some? ==> Keys(r.value) == Keys(s)
    ensures r.Some? && Valid(s) ==> Valid(r.value)
  {
    var list := Lookup(s, k);
    var i := FindEvent(list, id);
    if i == -1 then None
    else Some(Put(s, k, list[i := list[i].(title := title, time := time, notes := notes)]))
  }

  function WithoutId(id: string): Event -> bool {
    (e: Event) => e.id != id
  }

  /** The store half of `deleteEvent`: drop every event with that id from the
      date's list, and drop the date when nothing is left. */
  function Delete(s: Snapshot, k: string, id: string): (r: Snapshot)
    ensures Lookup(r, k) == Filter(WithoutId(id), Lookup(s, k))
    ensures forall e :: e in Lookup(r, k) <==> e in Lookup(s, k) && e.id != id
    ensures HasKey(r, k) <==> exists e :: e in Lookup(s, k) && e.id != id
    ensures forall k' :: k' != k ==> Lookup(r, k') == Lookup(s, k')
    ensures forall k' :: k' != k ==> (HasKey(r, k') <==> HasKey(s, k'))
    ensures HasKey(r, k) ==> Keys(r) == Keys(s)
    ensures !HasKey(r, k) ==> Keys(r) == Filter(OtherThan(k), Keys(s))
    ensures Valid(s) ==> Valid(r)
  {
    var kept := Filter(WithoutId(id), Lookup(s, k));
    if |kept| == 0 then
      RemoveKeyValid(s, k);
      RemoveKey(s, k)
    else
      assert kept[0] in Lookup(s, k);
      Put(s, k, kept)
  }

  /** The store half of `toggleCompleted`: flip the first event with that id
      between done and not done; nothing happens when there is none. */
  function Toggle(s: Snapshot, k: string, id: string): (r: Snapshot)
    ensures !HasEvent(Lookup(s, k), id) ==> r == s
    ensures HasEvent(Lookup(s, k), id) ==>
      var before, i := Lookup(s, k), FindEvent(Lookup(s, k), id);
      Lookup(r, k) == before[i := before[i].(completed := !before[i].completed)]
    ensures forall k' :: k' != k ==> Lookup(r, k') == Lookup(s, k')
    ensures Keys(r) == Keys(s)
    ensures Valid(s) ==> Valid(r)
  {
    var list := Lookup(s, k);
    var i := FindEvent(list, id);
    if i == -1 then s
    else Put(s, k, list[i := list[i].(completed := !list[i].completed)])
  }

  /** Writing back the list a key already holds changes nothing. */
  lemma {:induction false} PutLookup(s: Snapshot, k: string)
    requires HasKey(s, k)
    ensures Put(s, k, Lookup(s, k)) == s
  {
    if s[0].key != k {
      assert Keys(s) == [s[0].key] + Keys(s[1..]);
      PutLookup(s[1..], k);
    }
  }

  /** The second of two writes to the same key wins. */
  lemma {:induction false} PutPut(s: Snapshot, k: string, a: seq<Event>, b: seq<Event>)
    ensures Put(Put(s, k, a), k, b) == Put(s, k, b)
  {
    if |s| > 0 && s[0].key != k {
      PutPut(s[1..], k, a, b);
      assert Put(s, k, a)[1..] == Put(s[1..], k, a);
    }
  }

  /** Deleting a key that a write just created restores the snapshot. */
  lemma {:induction false} RemoveAfterPut(s: Snapshot, k: string, evs: seq<Event>)
    requires !HasKey(s, k)
    ensures RemoveKey(Put(s, k, evs), k) == s
  {
    if |s| > 0 {
      HasKeyStep(s, k);
      RemoveAfterPut(s[1..], k, evs);
      RemoveAfterPutStep(s, k, evs);
    }
  }

  lemma RemoveAfterPutStep(s: Snapshot, k: string, evs: seq<Event>)
    requires |s| > 0 && s[0].key != k
    requires RemoveKey(Put(s[1..], k, evs), k) == s[1..]
    ensures RemoveKey(Put(s, k, evs), k) == s
  {
    var tail := Put(s[1..], k, evs);
    calc {
      RemoveKey(Put(s, k, evs), k);
      == { PutStep(s, k, evs); }
      RemoveKey([s[0]] + tail, k);
      == { RemoveKeyCons(s[0], tail, k); }
      [s[0]] + RemoveKey(tail, k);
      ==
      [s[0]] + s[1..];
      == { HeadAndTail(s); }
      s;
    }
  }

  /** A write to a key other than the first entry's goes to the rest. */
  lemma PutStep(s: Snapshot, k: string, evs: seq<Event>)
    requires |s| > 0 && s[0].key != k
    ensures Put(s, k, evs) == [s[0]] + Put(s[1..], k, evs)
  {
  }

  /** Removing a key other than the first entry's removes it from the
      rest. */
  lemma RemoveKeyCons(e: Entry, s: Snapshot, k: string)
    requires e.key != k
    ensures RemoveKey([e] + s, k) == [e] + RemoveKey(s, k)
  {
    assert ([e] + s)[1..] == s;
  }

  /** Two lists whose events carry the same ids position by position have
      their first event with a given id at the same position. */
  lemma FindEventById(a: seq<Event>, b: seq<Event>, id: string)
    requires |a| == |b| && forall j :: 0 <= j < |a| ==> a[j].id == b[j].id
    ensures FindEvent(a, id) == FindEvent(b, id)
  {
  }

  /** Ticking the checkbox twice restores the snapshot. */
  lemma {:induction false} ToggleTwice(s: Snapshot, k: string, id: string)
    ensures Toggle(Toggle(s, k, id), k, id) == s
  {
    var list := Lookup(s, k);
    var i := FindEvent(list, id);
    if i != -1 {
      var flipped := list[i := list[i].(completed := !list[i].completed)];
      var t := Toggle(s, k, id);
      assert t == Put(s, k, flipped);
      FindEventById(list, flipped, id);
      assert flipped[i := flipped[i].(completed := !flipped[i].completed)] == list;
      assert Toggle(t, k, id) == Put(t, k, list);
      PutPut(s, k, flipped, list);
      PutLookup(s, k);
    }
  }

  /** Saving an edit that keeps the title, time and notes changes nothing. */
  lemma {:induction false} EditUnchanged(s: Snapshot, k: string, id: string)
    requires HasEvent(Lookup(s, k), id)
    ensures var e := Lookup(s, k)[FindEvent(Lookup(s, k), id)];
      Edit(s, k, id, e.title, e.time, e.notes) == Some(s)
  {
    var list := Lookup(s, k);
    var i := FindEvent(list, id);
    assert list[i := list[i].(title := list[i].title, time := list[i].time, notes := list[i].notes)] == list;
    PutLookup(s, k);
  }

  /** Deleting an event just added, under an id its date did not use yet,
      restores the snapshot: the date's list is put back, or the date is
      removed again when the event was its first. */
  lemma {:induction false} AddThenDelete(s: Snapshot, k: string, ev: Event)
    requires NoEmptyLists(s)
    requires !HasEvent(Lookup(s, k), ev.id)
    ensures Delete(Add(s, k, ev), k, ev.id) == s
  {
    var list := Lookup(s, k);
    var p := WithoutId(ev.id);
    FilterAppend(p, list, [ev]);
    FilterAll(p, list);
    assert Filter(p, [ev]) == [];
    var a := Add(s, k, ev);
    assert Filter(p, Lookup(a, k)) == list;
    if |list| == 0 {
      RemoveAfterPut(s, k, list + [ev]);
    } else {
      PutPut(s, k, list + [ev], list);
      PutLookup(s, k);
    }
  }
}

=== FILE: text.dfy ===
/** The string primitives the calendar relies on: `String.prototype.trim`,
    `String(n)`, `padStart(2, "0")`, `split`, `Number(s)` and the comparison
    behind `localeCompare`. Strings are sequences of Unicode scalar values. */
module Text {
  import opened Wrappers

  /** JavaScript's WhiteSpace and LineTerminator characters outside the
      range U+2000..U+200A: what `trim` strips and what `Number` ignores
      around a numeral. */
  const SpaceChars: set<char> := {
    '\t', '\n', '\U{B}', '\U{C}', '\r', ' ', '\U{A0}', '\U{1680}',
    '\U{2028}', '\U{2029}', '\U{202F}', '\U{205F}', '\U{3000}', '\U{FEFF}'
  }

  predicate IsSpace(c: char) {
    c in SpaceChars || '\U{2000}' <= c <= '\U{200A}'
  }

  predicate AllSpace(s: string) {
    forall k :: 0 <= k < |s| ==> IsSpace(s[k])
  }

  /** How many white-space characters `s` starts with. */
  function LeadingSpaces(s: string): (n: nat)
    ensures n <= |s|
    decreases |s|
  {
    if |s| > 0 && IsSpace(s[0]) then 1 + LeadingSpaces(s[1..]) else 0
  }

  /** The leading white space is a maximal white-space prefix. */
  lemma {:induction false} LeadingSpacesMaximal(s: string)
    ensures var n := LeadingSpaces(s);
      && (forall k :: 0 <= k < n ==> IsSpace(s[k]))
      && (n < |s| ==> !IsSpace(s[n]))
    decreases |s|
  {
    if |s| > 0 && IsSpace(s[0]) {
      LeadingSpacesMaximal(s[1..]);
    }
  }

  /** How many white-space characters `s` ends with. */
  function TrailingSpaces(s: string): (n: nat)
    ensures n <= |s|
    decreases |s|
  {
    if |s| > 0 && IsSpace(s[|s| - 1]) then 1 + TrailingSpaces(s[..|s| - 1]) else 0
  }

  /** The trailing white space is a maximal white-space suffix. */
  lemma {:induction false} TrailingSpacesMaximal(s: string)
    ensures var n := TrailingSpaces(s);
      && (forall k :: |s| - n <= k < |s| ==> IsSpace(s[k]))
      && (n < |s| ==> !IsSpace(s[|s| - n - 1]))
    decreases |s|
  {
    if |s| > 0 && IsSpace(s[|s| - 1]) {
      TrailingSpacesMaximal(s[..|s| - 1]);
    }
  }

  /** `s.trim()`: the slice of `s` left after removing white space at both
      ends. */
  function Trim(s: string): (r: string)
    ensures |r| <= |s|
  {
    var t := s[LeadingSpaces(s)..];
    t[..|t| - TrailingSpaces(t)]
  }

  /** What `trim` removes: everything outside the result is white space, a
      non-empty result neither starts nor ends with it, and the result is
      one contiguous slice of the input. */
  lemma TrimStripsSpace(s: string)
    ensures var r, i := Trim(s), LeadingSpaces(s);
      && i + |r| <= |s| && r == s[i..i + |r|]
      && (forall k :: 0 <= k < i ==> IsSpace(s[k]))
      && (forall k :: i + |r| <= k < |s| ==> IsSpace(s[k]))
      && (|r| > 0 ==> !IsSpace(r[0]) && !IsSpace(r[|r| - 1]))
  {
    LeadingSpacesMaximal(s);
    TrimIsSlice(s);
    TrimDropsTrailing(s);
    TrimEnds(s);
  }

  lemma TrimIsSlice(s: string)
    ensures var r, i := Trim(s), LeadingSpaces(s);
      i + |r| <= |s| && r == s[i..i + |r|]
  {
    var i := LeadingSpaces(s);
    var t := s[i..];
    assert t[..|t| - TrailingSpaces(t)] == s[i..i + |t| - TrailingSpaces(t)];
  }

  lemma TrimDropsTrailing(s: string)
    ensures var r, i := Trim(s), LeadingSpaces(s);
      forall k :: i + |r| <= k < |s| ==> IsSpace(s[k])
  {
    var i := LeadingSpaces(s);
    var t := s[i..];
    var j := TrailingSpaces(t);
    TrailingSpacesMaximal(t);
    forall k | i + |t| - j <= k < |s| ensures IsSpace(s[k]) {
      assert s[k] == t[k - i];
    }
  }

  lemma TrimEnds(s: string)
    ensures var r := Trim(s);
      |r| > 0 ==> !IsSpace(r[0]) && !IsSpace(r[|r| - 1])
  {
    var i := LeadingSpaces(s);
    var t := s[i..];
    var j := TrailingSpaces(t);
    LeadingSpacesMaximal(s);
    TrailingSpacesMaximal(t);
    var r := Trim(s);
    if |r| > 0 {
      assert r[0] == t[0] == s[i];
      assert r[|r| - 1] == t[|t| - j - 1];
    }
  }

  /** The trim is empty exactly when the input is all white space. */
  lemma TrimEmpty(s: string)
    ensures Trim(s) == [] <==> AllSpace(s)
  {
    TrimStripsSpace(s);
    var i := LeadingSpaces(s);
    if Trim(s) == [] {
      forall k | 0 <= k < |s| ensures IsSpace(s[k]) {
        if k >= i {
          assert i + |Trim(s)| <= k;
        }
      }
    }
  }

  /** A string that neither starts nor ends with white space is its own trim. */
  lemma {:induction false} TrimOfSpaceFree(s: string)
    requires |s| > 0 ==> !IsSpace(s[0]) && !IsSpace(s[|s| - 1])
    ensures Trim(s) == s
  {
    assert LeadingSpaces(s) == 0;
    assert TrailingSpaces(s) == 0;
    assert s[0..][..|s|] == s;
  }

  /** Trimming twice is trimming once. */
  lemma {:induction false} TrimIdempotent(s: string)
    ensures Trim(Trim(s)) == Trim(s)
  {
    TrimStripsSpace(s);
    TrimOfSpaceFree(Trim(s));
  }

  // ---------------------------------------------------------------------
  // Decimal numerals

  predicate IsDigit(c: char) {
    '0' <= c <= '9'
  }

  predicate AllDigits(s: string) {
    forall k :: 0 <= k < |s| ==> IsDigit(s[k])
  }

  function DigitChar(n: nat): (c: char)
    requires n < 10
    ensures IsDigit(c)
  {
    ['0', '1', '2', '3', '4', '5', '6', '7', '8', '9'][n]
  }

  function DigitValue(c: char): nat
    requires IsDigit(c)
  {
    (c as int - '0' as int) as nat
  }

  /** The value of a string of decimal digits (leading zeros allowed). */
  function DigitsValue(s: string): nat
    requires AllDigits(s)
    decreases |s|
  {
    if |s| == 0 then 0 else DigitsValue(s[..|s| - 1]) * 10 + DigitValue(s[|s| - 1])
  }

  /** The shortest decimal numeral of `n`. */
  function Digits(n: nat): (r: string)
    ensures |r| > 0 && AllDigits(r)
    ensures r[0] == '0' ==> n == 0
    ensures n < 10 ==> |r| == 1
    ensures 10 <= n < 100 ==> |r| == 2
  {
    if n < 10 then [DigitChar(n)] else Digits(n / 10) + [DigitChar(n % 10)]
  }

  /** Reading a numeral back gives the number. */
  lemma {:induction false} DigitsRoundTrip(n: nat)
    ensures DigitsValue(Digits(n)) == n
  {
    if n >= 10 {
      var d := Digits(n);
      assert d[..|d| - 1] == Digits(n / 10);
      DigitsRoundTrip(n / 10);
    }
  }

  /** `String(n)` for an integer: a minus sign exactly for a negative
      number, then decimal digits. */
  function IntToString(n: int): (r: string)
    ensures |r| > 0 && (r[0] == '-' <==> n < 0)
    ensures AllDigits(if n < 0 then r[1..] else r)
  {
    if n < 0 then "-" + Digits(-n) else Digits(n)
  }

  /** `s.padStart(2, "0")`: zeros in front up to length two. */
  function PadStart2(s: string): (r: string)
    ensures |r| == if |s| < 2 then 2 else |s|
    ensures AllDigits(s) ==> AllDigits(r)
  {
    if |s| == 0 then "00" else if |s| == 1 then "0" + s else s
  }

  /** The padding is zeros in front of the unchanged input. */
  lemma PadStart2Pads(s: string)
    ensures var r := PadStart2(s);
      && r[|r| - |s|..] == s
      && (forall k :: 0 <= k < |r| - |s| ==> r[k] == '0')
  {
  }

  /** `Number(s)` on the inputs this program gives it: surrounding white
      space is ignored, the empty string is 0, an optional sign may precede
      decimal digits, and anything else is NaN, here `None`. */
  function NumberOf(s: string): (r: Option<int>)
    ensures AllSpace(s) ==> r == Some(0)
    ensures |s| > 0 && AllDigits(s) ==> r == Some(DigitsValue(s))
  {
    TrimEmpty(s);
    TrimOfDigits(s);
    var t := Trim(s);
    if t == [] then Some(0)
    else if AllDigits(t) then Some(DigitsValue(t))
    else if |t| > 1 && t[0] == '+' && AllDigits(t[1..]) then Some(DigitsValue(t[1..]))
    else if |t| > 1 && t[0] == '-' && AllDigits(t[1..]) then Some(-(DigitsValue(t[1..]) as int))
    else None
  }

  /** A numeral has no white space to trim. */
  lemma TrimOfDigits(s: string)
    ensures |s| > 0 && AllDigits(s) ==> Trim(s) == s
  {
    if |s| > 0 && AllDigits(s) {
      assert IsDigit(s[0]) && IsDigit(s[|s| - 1]);
      TrimOfSpaceFree(s);
    }
  }

  /** `Number(String(n))` is `n` for every non-negative integer. */
  lemma {:induction false} NumberOfDigits(n: nat)
    ensures NumberOf(Digits(n)) == Some(n)
  {
    var d := Digits(n);
    assert !IsSpace(d[0]) && !IsSpace(d[|d| - 1]);
    TrimOfSpaceFree(d);
    DigitsRoundTrip(n);
  }

  /** ... and so is `Number(String(n).padStart(2, "0"))`. */
  lemma {:induction false} NumberOfPaddedDigits(n: nat)
    ensures NumberOf(PadStart2(Digits(n))) == Some(n)
  {
    if n < 10 {
      var c := DigitChar(n);
      assert Digits(n) == [c];
      var p := PadStart2([c]);
      assert p == ['0', c];
      assert !IsSpace(p[0]) && !IsSpace(p[1]);
      TrimOfSpaceFree(p);
      assert p[..1] == ['0'];
      assert ['0'][..0] == [];
      assert DigitsValue(p) == n;
    } else {
      assert PadStart2(Digits(n)) == Digits(n);
      NumberOfDigits(n);
    }
  }

  /** A character that is not a digit does not occur in a numeral. */
  lemma NotInDigits(s: string, c: char)
    requires AllDigits(s) && !IsDigit(c)
    ensures c !in s
  {
  }

  // ---------------------------------------------------------------------
  // Splitting

  /** `s.split(sep)` for a one-character separator: the pieces between
      separators, so the result always has one more piece than `s` has
      separators (`"".split("-")` is `[""]`). */
  function Split(s: string, sep: char): (r: seq<string>)
    ensures |r| == Occurrences(s, sep) + 1
    decreases |s|
  {
    if |s| == 0 then [""]
    else if s[0] == sep then [""] + Split(s[1..], sep)
    else
      var rest := Split(s[1..], sep);
      [[s[0]] + rest[0]] + rest[1..]
  }

  /** How many times `c` occurs in `s`. */
  function Occurrences(s: string, c: char): nat
    decreases |s|
  {
    if |s| == 0 then 0 else (if s[0] == c then 1 else 0) + Occurrences(s[1..], c)
  }

  /** A string without the separator is a single piece. */
  lemma {:induction false} SplitWithoutSep(a: string, sep: char)
    requires sep !in a
    ensures Split(a, sep) == [a]
    decreases |a|
  {
    if |a| > 0 {
      SplitWithoutSep(a[1..], sep);
      assert [a[0]] + a[1..] == a;
    }
  }

  /** Splitting at the first separator peels off the first piece. */
  lemma {:induction false} SplitAtFirstSep(a: string, sep: char, b: string)
    requires sep !in a
    ensures Split(a + [sep] + b, sep) == [a] + Split(b, sep)
    decreases |a|
  {
    var s := a + [sep] + b;
    if |a| == 0 {
      assert s[1..] == b;
    } else {
      assert s[1..] == a[1..] + [sep] + b;
      SplitAtFirstSep(a[1..], sep, b);
      assert [a[0]] + a[1..] == a;
    }
  }

  /** Three separator-free pieces joined by the separator split back apart. */
  lemma {:induction false} SplitThree(a: string, b: string, c: string, sep: char)
    requires sep !in a && sep !in b && sep !in c
    ensures Split(a + [sep] + b + [sep] + c, sep) == [a, b, c]
  {
    SplitWithoutSep(c, sep);
    SplitAtFirstSep(b, sep, c);
    assert a + [sep] + b + [sep] + c == a + [sep] + (b + [sep] + c);
    SplitAtFirstSep(a, sep, b + [sep] + c);
  }

  // ---------------------------------------------------------------------
  // Ordering

  /** Scalar-value lexicographic order, the order `localeCompare` gives the
      fixed-width `HH:MM` strings this program compares: `LexLe(a, b)` holds
      when `a.localeCompare(b) <= 0`. */
  predicate LexLe(a: string, b: string)
    decreases |a|
  {
    |a| == 0 || (|b| > 0 && (a[0] < b[0] || (a[0] == b[0] && LexLe(a[1..], b[1..]))))
  }

  lemma {:induction false} LexLeTotal(a: string, b: string)
    ensures LexLe(a, b) || LexLe(b, a)
    decreases |a|
  {
    if |a| > 0 && |b| > 0 && a[0] == b[0] {
      LexLeTotal(a[1..], b[1..]);
    }
  }

  lemma {:induction false} LexLeTransitive(a: string, b: string, c: string)
    requires LexLe(a, b) && LexLe(b, c)
    ensures LexLe(a, c)
    decreases |a|
  {
    if |a| > 0 && a[0] == b[0] && b[0] == c[0] {
      LexLeTransitive(a[1..], b[1..], c[1..]);
    }
  }

  /** Two strings each below the other are equal. */
  lemma {:induction false} LexLeAntisymmetric(a: string, b: string)
    requires LexLe(a, b) && LexLe(b, a)
    ensures a == b
    decreases |a|
  {
    if |a| > 0 {
      LexLeAntisymmetric(a[1..], b[1..]);
      assert a == [a[0]] + a[1..] && b == [b[0]] + b[1..];
    }
  }

  /** The position of the first `c` in `s`, or `|s|` when there is none. */
  function IndexOf(s: string, c: char): (i: nat)
    ensures i <= |s|
    decreases |s|
  {
    if |s| == 0 || s[0] == c then 0 else 1 + IndexOf(s[1..], c)
  }

  lemma {:induction false} IndexOfJoin(a: string, c: char, b: string)
    requires c !in a
    ensures IndexOf(a + [c] + b, c) == |a|
    decreases |a|
  {
    if |a| > 0 {
      assert (a + [c] + b)[1..] == a[1..] + [c] + b;
      IndexOfJoin(a[1..], c, b);
    }
  }

  /** A string joined from a separator-free head, the separator and a tail
      determines both the head and the tail. */
  lemma {:induction false} JoinedAtSeparator(a: string, c: char, b: string, a': string, b': string)
    requires c !in a && c !in a'
    requires a + [c] + b == a' + [c] + b'
    ensures a == a' && b == b'
  {
    var s := a + [c] + b;
    IndexOfJoin(a, c, b);
    IndexOfJoin(a', c, b');
    assert a == s[..|a|] && a' == s[..|a'|];
    assert b == s[|a| + 1..] && b' == s[|a'| + 1..];
  }

  /** `String(n)` is one-to-one. */
  lemma {:induction false} IntToStringInjective(a: int, b: int)
    requires IntToString(a) == IntToString(b)
    ensures a == b
  {
    if a >= 0 && b >= 0 {
      DigitsInjective(a, b);
    } else if a < 0 && b < 0 {
      AfterSign(Digits(-a));
      AfterSign(Digits(-b));
      DigitsInjective(-a, -b);
    }
  }

  /** The text after a leading minus sign. */
  lemma AfterSign(x: string)
    ensures ("-" + x)[1..] == x
  {
  }

  lemma {:induction false} DigitsInjective(a: nat, b: nat)
    requires Digits(a) == Digits(b)
    ensures a == b
  {
    DigitsRoundTrip(a);
    DigitsRoundTrip(b);
  }
}

=== FILE: ui.dfy ===
/** The page state (`selected`, `editing`, the form inputs and the month
    shown by the two dropdowns) and the handlers that change it, each a pure
    transition on the state and the saved events. An `alert` becomes a value
    in the outcome. */
module Ui {
  import opened Wrappers
  import opened Text
  import opened Dates
  import opened DateKeys
  import opened Store
  import opened Grid
  import opened Views

  /** The title, time and notes inputs. */
  datatype Form = Form(title: string, time: string, notes: string)

  const EmptyForm := Form("", "", "")

  /** `editing = { dateKey, id }`. */
  datatype EditTarget = EditTarget(key: string, id: string)

  datatype Page = Page(viewYear: int, viewMonth: int, selected: Option<Date>, editing: Option<EditTarget>, form: Form)

  /** The page together with the saved events. */
  datatype App = App(page: Page, store: Snapshot)

  datatype Alert =
    | PickADayFirst   // "Click a day on the calendar first."
    | TitleRequired   // "Please enter a title."
    | EventNotFound   // "Could not find that event to edit."

  datatype Outcome = Outcome(app: App, alert: Option<Alert>)

  // ---------------------------------------------------------------------
  // Edit mode and selection

  /** `exitEditMode`: leave edit mode and clear the three inputs. */
  function ExitEditMode(p: Page): (r: Page)
    ensures r.editing == None && r.form == EmptyForm
    ensures r.selected == p.selected && r.viewYear == p.viewYear && r.viewMonth == p.viewMonth
  {
    p.(editing := None, form := EmptyForm)
  }

  /** `enterEditMode`: remember which event the form is editing. */
  function EnterEditMode(p: Page, key: string, id: string): (r: Page)
    ensures r.editing == Some(EditTarget(key, id))
    ensures r.selected == p.selected && r.form == p.form && r.viewYear == p.viewYear && r.viewMonth == p.viewMonth
  {
    p.(editing := Some(EditTarget(key, id)))
  }

  /** `selectDate`: select the date and leave edit mode. */
  function SelectDate(p: Page, d: Date): (r: Page)
    ensures r.selected == Some(d) && r.editing == None && r.form == EmptyForm
    ensures r.viewYear == p.viewYear && r.viewMonth == p.viewMonth
  {
    ExitEditMode(p.(selected := Some(d)))
  }

  /** `getFormValues`: the inputs with white space trimmed from both ends. */
  function FormValues(f: Form): (r: Form)
    ensures r.title == Trim(f.title) && r.time == Trim(f.time) && r.notes == Trim(f.notes)
    ensures r.title == "" <==> AllSpace(f.title)
  {
    TrimEmpty(f.title);
    Form(Trim(f.title), Trim(f.time), Trim(f.notes))
  }

  // ---------------------------------------------------------------------
  // Handlers that change the saved events

  /** `addEventForSelectedDate`, with the fresh id and the creation time
      passed in. */
  function AddEvent(app: App, id: string, createdAt: int): (r: Outcome)
    ensures app.page.selected.None? ==> r == Outcome(app, Some(PickADayFirst))
    ensures app.page.selected.Some? && AllSpace(app.page.form.title) ==> r == Outcome(app, Some(TitleRequired))
    ensures app.page.selected.Some? && !AllSpace(app.page.form.title) ==>
      var f, key := app.page.form, DateKey(app.page.selected.value);
      && r.alert == None
      && Lookup(r.app.store, key) == Lookup(app.store, key) + [Event(id, Trim(f.title), Trim(f.time), Trim(f.notes), false, createdAt)]
      && (forall k :: k != key ==> Lookup(r.app.store, k) == Lookup(app.store, k))
      && Keys(r.app.store) == (if HasKey(app.store, key) then Keys(app.store) else Keys(app.store) + [key])
      && r.app.store == Add(app.store, key, Event(id, Trim(f.title), Trim(f.time), Trim(f.notes), false, createdAt))
      && r.app.page == ExitEditMode(app.page)
  {
    var p := app.page;
    if p.selected.None? then Outcome(app, Some(PickADayFirst))
    else
      var f := FormValues(p.form);
      if f.title == "" then Outcome(app, Some(TitleRequired))
      else
        var ev := Event(id, f.title, f.time, f.notes, false, createdAt);
        Outcome(App(ExitEditMode(p), Add(app.store, DateKey(p.selected.value), ev)), None)
  }

  /** `saveEdit`. */
  function SaveEdit(app: App): (r: Outcome)
    ensures app.page.editing.None? ==> r == Outcome(app, None)
    ensures app.page.editing.Some? && AllSpace(app.page.form.title) ==> r == Outcome(app, Some(TitleRequired))
    ensures app.page.editing.Some? && !AllSpace(app.page.form.title) ==>
      var t := app.page.editing.value;
      && r.app.page == ExitEditMode(app.page)
      && (r.alert == Some(EventNotFound) <==> !HasEvent(Lookup(app.store, t.key), t.id))
      && (r.alert == Some(EventNotFound) ==> r.app.store == app.store)
    ensures app.page.editing.Some? && !AllSpace(app.page.form.title) && HasEvent(Lookup(app.store, app.page.editing.value.key), app.page.editing.value.id) ==>
      var t, f := app.page.editing.value, app.page.form;
      && r.alert == None
      && Some(r.app.store) == Edit(app.store, t.key, t.id, Trim(f.title), Trim(f.time), Trim(f.notes))
  {
    var p := app.page;
    if p.editing.None? then Outcome(app, None)
    else
      var f := FormValues(p.form);
      if f.title == "" then Outcome(app, Some(TitleRequired))
      else
        var t := p.editing.value;
        match Edit(app.store, t.key, t.id, f.title, f.time, f.notes)
        case None => Outcome(App(ExitEditMode(p), app.store), Some(EventNotFound))
        case Some(s) => Outcome(App(ExitEditMode(p), s), None)
  }

  /** `deleteEvent`: edit mode ends only when the deleted event is the one
      being edited. */
  function DeleteEvent(app: App, key: string, id: string): (r: App)
    ensures r.store == Delete(app.store, key, id)
    ensures app.page.editing == Some(EditTarget(key, id)) ==> r.page == ExitEditMode(app.page)
    ensures app.page.editing != Some(EditTarget(key, id)) ==> r.page == app.page
  {
    var p := if app.page.editing == Some(EditTarget(key, id)) then ExitEditMode(app.page) else app.page;
    App(p, Delete(app.store, key, id))
  }

  /** `toggleCompleted`. */
  function ToggleCompleted(app: App, key: string, id: string): (r: App)
    ensures r.page == app.page && r.store == Toggle(app.store, key, id)
  {
    App(app.page, Toggle(app.store, key, id))
  }

  /** `startEdit`: load the first event with that id into the form and enter
      edit mode; nothing happens when there is none. */
  function StartEdit(app: App, key: string, id: string): (r: App)
    ensures r.store == app.store
    ensures !HasEvent(Lookup(app.store, key), id) ==> r == app
    ensures HasEvent(Lookup(app.store, key), id) ==>
      var ev := Lookup(app.store, key)[FindEvent(Lookup(app.store, key), id)];
      r.page == app.page.(form := Form(ev.title, ev.time, ev.notes), editing := Some(EditTarget(key, id)))
  {
    var list := Lookup(app.store, key);
    var i := FindEvent(list, id);
    if i == -1 then app
    else
      var ev := list[i];
      App(EnterEditMode(app.page.(form := Form(ev.title, ev.time, ev.notes)), key, id), app.store)
  }

  // ---------------------------------------------------------------------
  // Navigation

  /** `changeMonth(delta)`: move the month, rolling over to December of the
      year before or January of the year after, and leave edit mode. */
  function ChangeMonth(p: Page, delta: int): (r: Page)
    ensures ValidMonth(r.viewMonth)
    ensures ValidMonth(p.viewMonth) && (delta == 1 || delta == -1) ==>
      r.viewYear * 12 + r.viewMonth == p.viewYear * 12 + p.viewMonth + delta
    ensures r.selected == p.selected && r.editing == None && r.form == EmptyForm
  {
    var m := p.viewMonth + delta;
    var (y, m') := if m < 0 then (p.viewYear - 1, 11) else if m > 11 then (p.viewYear + 1, 0) else (p.viewYear, m);
    ExitEditMode(p.(viewYear := y, viewMonth := m'))
  }

  /** Next month then previous month returns to the month shown before. */
  lemma NextThenPrevious(p: Page)
    requires ValidMonth(p.viewMonth)
    ensures var r := ChangeMonth(ChangeMonth(p, 1), -1);
      r.viewYear == p.viewYear && r.viewMonth == p.viewMonth
  {
  }

  /** `setToToday`: show and select today's date. */
  function SetToToday(p: Page, today: Date): (r: Page)
    requires ValidDate(today)
    ensures r.viewYear == today.year && r.viewMonth == today.monthIndex
    ensures r.selected == Some(today) && r.editing == None && r.form == EmptyForm
  {
    SelectDate(p.(viewYear := today.year, viewMonth := today.monthIndex), today)
  }

  /** A change of either dropdown: show that month and leave edit mode. */
  function ShowMonth(p: Page, year: int, month: int): (r: Page)
    requires ValidMonth(month)
    ensures r.viewYear == year && r.viewMonth == month
    ensures r.selected == p.selected && r.editing == None && r.form == EmptyForm
  {
    ExitEditMode(p.(viewYear := year, viewMonth := month))
  }

  /** A key that reads back as a real day. */
  predicate IsDateKey(key: string) {
    ParseDateKey(key).Some? && ValidDate(ParseDateKey(key).value)
  }

  /** A click on an upcoming item: show the month of its date and select
      it. */
  function OpenUpcoming(p: Page, key: string): (r: Page)
    requires IsDateKey(key)
    ensures var d := ParseDateKey(key).value;
      r.viewYear == d.year && r.viewMonth == d.monthIndex && r.selected == Some(d) && r.editing == None && r.form == EmptyForm
  {
    var d := ParseDateKey(key).value;
    SelectDate(p.(viewYear := d.year, viewMonth := d.monthIndex), d)
  }

  // ---------------------------------------------------------------------
  // The page as a whole

  /** What the user can do. The buttons of the list beside the grid act on
      the selected date, whose events that list shows; a click on the grid
      names the cell. */
  datatype Action =
    | ClickCell(cell: int)
    | PressToday(today: Date)
    | PressPrevious
    | PressNext
    | PickMonth(month: int)
    | PickYear(year: int)
    | Type(form: Form)
    | PressAdd(id: string, createdAt: int)
    | PressSave
    | PressCancel
    | PressEdit(id: string)
    | PressDelete(id: string)
    | TickCheckbox(id: string)
    | ClickUpcoming(key: string)

  /** One user action. Inputs that no control can produce (a padding cell, a
      month outside the dropdown, a clock that is not a real day, an
      upcoming item whose key is not a date, a list button with no date
      selected) leave everything as it was. */
  function Apply(app: App, today: Date, a: Action): (r: Outcome)
    requires ValidMonth(app.page.viewMonth)
    ensures ValidMonth(r.app.page.viewMonth)
    ensures r.alert.Some? ==> r.app.store == app.store
    ensures !(a.PressAdd? || a.PressSave? || a.PressDelete? || a.TickCheckbox?) ==> r.app.store == app.store && r.alert == None
  {
    var p := app.page;
    match a
    case ClickCell(i) =>
      var cells := Render(p.viewYear, p.viewMonth, app.store, p.selected, today);
      if 0 <= i < |cells| && cells[i].Day? then Outcome(App(SelectDate(p, Date(p.viewYear, p.viewMonth, cells[i].day)), app.store), None)
      else Outcome(app, None)
    case PressToday(t) =>
      if ValidDate(t) then Outcome(App(SetToToday(p, t), app.store), None) else Outcome(app, None)
    case PressPrevious => Outcome(App(ChangeMonth(p, -1), app.store), None)
    case PressNext => Outcome(App(ChangeMonth(p, 1), app.store), None)
    case PickMonth(m) =>
      if ValidMonth(m) then Outcome(App(ShowMonth(p, p.viewYear, m), app.store), None) else Outcome(app, None)
    case PickYear(y) => Outcome(App(ShowMonth(p, y, p.viewMonth), app.store), None)
    case Type(f) => Outcome(App(p.(form := f), app.store), None)
    case PressAdd(id, createdAt) => AddEvent(app, id, createdAt)
    case PressSave => SaveEdit(app)
    case PressCancel => Outcome(App(ExitEditMode(p), app.store), None)
    case PressEdit(id) =>
      if p.selected.None? then Outcome(app, None) else Outcome(StartEdit(app, DateKey(p.selected.value), id), None)
    case PressDelete(id) =>
      if p.selected.None? then Outcome(app, None) else Outcome(DeleteEvent(app, DateKey(p.selected.value), id), None)
    case TickCheckbox(id) =>
      if p.selected.None? then Outcome(app, None) else Outcome(ToggleCompleted(app, DateKey(p.selected.value), id), None)
    case ClickUpcoming(key) =>
      if IsDateKey(key) then Outcome(App(OpenUpcoming(p, key), app.store), None) else Outcome(app, None)
  }

  /** What holds of the page and the saved events between any two actions:
      the store is well formed and keyed by real days, the month shown is a
      month, the selected date is a real day, and an event being edited is
      one of the selected date's events. */
  ghost predicate AppInvariant(app: App) {
    var p := app.page;
    && Valid(app.store)
    && (forall k :: HasKey(app.store, k) ==> IsDateKey(k))
    && ValidMonth(p.viewMonth)
    && (p.selected.Some? ==> ValidDate(p.selected.value))
    && (p.editing.Some? ==>
          && p.selected.Some?
          && p.editing.value.key == DateKey(p.selected.value)
          && HasEvent(Lookup(app.store, p.editing.value.key), p.editing.value.id))
  }

  /** The start-up state: today shown and selected, nothing saved yet or
      the saved events as loaded. */
  function Start(today: Date, store: Snapshot): (r: App)
    requires ValidDate(today)
    ensures r.page.viewYear == today.year && r.page.viewMonth == today.monthIndex
    ensures r.page.selected == Some(today) && r.page.editing == None && r.page.form == EmptyForm && r.store == store
  {
    App(SetToToday(Page(today.year, today.monthIndex, None, None, EmptyForm), today), store)
  }

  lemma StartInvariant(today: Date, store: Snapshot)
    requires ValidDate(today) && Valid(store) && (forall k :: HasKey(store, k) ==> IsDateKey(k))
    ensures AppInvariant(Start(today, store))
  {
  }

  /** Every action keeps the invariant. */
  lemma {:induction false} ApplyKeepsInvariant(app: App, today: Date, a: Action)
    requires AppInvariant(app)
    ensures AppInvariant(Apply(app, today, a).app)
  {
    var p := app.page;
    match a
    case ClickCell(i) => {
    }
    case PressAdd(id, createdAt) => {
      AddKeepsInvariant(app, id, createdAt);
    }
    case PressSave => {
      SaveKeepsInvariant(app);
    }
    case PressDelete(id) => {
      if p.selected.Some? {
        DeleteKeepsInvariant(app, id);
      }
    }
    case TickCheckbox(id) => {
      if p.selected.Some? {
        ToggleKeepsInvariant(app, id);
      }
    }
    case PressEdit(id) => {
    }
    case _ => {
    }
  }

  lemma AddKeepsInvariant(app: App, id: string, createdAt: int)
    requires AppInvariant(app)
    ensures AppInvariant(AddEvent(app, id, createdAt).app)
  {
    var p := app.page;
    if p.selected.Some? && !AllSpace(p.form.title) {
      var d := p.selected.value;
      KeyRoundTrip(d);
      var ev := Event(id, Trim(p.form.title), Trim(p.form.time), Trim(p.form.notes), false, createdAt);
      assert AddEvent(app, id, createdAt).app.store == Add(app.store, DateKey(d), ev);
    }
  }

  lemma SaveKeepsInvariant(app: App)
    requires AppInvariant(app)
    ensures AppInvariant(SaveEdit(app).app)
  {
  }

  lemma DeleteKeepsInvariant(app: App, id: string)
    requires AppInvariant(app) && app.page.selected.Some?
    ensures AppInvariant(DeleteEvent(app, DateKey(app.page.selected.value), id))
  {
    var key := DateKey(app.page.selected.value);
    DeleteKeepsKeys(app.store, key, id);
    DeleteKeepsTarget(app, id);
  }

  /** Deleting never adds a key. */
  lemma DeleteKeepsKeys(s: Snapshot, key: string, id: string)
    ensures forall k :: HasKey(Delete(s, key, id), k) ==> HasKey(s, k)
  {
    forall k | HasKey(Delete(s, key, id), k) ensures HasKey(s, k) {
      if k == key {
        var e :| e in Lookup(s, key) && e.id != id;
      }
    }
  }

  /** An edit target that survives the deletion is still stored. */
  lemma DeleteKeepsTarget(app: App, id: string)
    requires AppInvariant(app) && app.page.selected.Some?
    ensures var r := DeleteEvent(app, DateKey(app.page.selected.value), id);
      r.page.editing.Some? ==> HasEvent(Lookup(r.store, r.page.editing.value.key), r.page.editing.value.id)
  {
    var key := DateKey(app.page.selected.value);
    if app.page.editing.Some? && app.page.editing != Some(EditTarget(key, id)) {
      var t := app.page.editing.value;
      DeleteKeepsOthers(app.store, key, id, t.id);
    }
  }

  /** Deleting one id keeps every event with another id. */
  lemma DeleteKeepsOthers(s: Snapshot, key: string, id: string, other: string)
    requires other != id && HasEvent(Lookup(s, key), other)
    ensures HasEvent(Lookup(Delete(s, key, id), key), other)
  {
    var list := Lookup(s, key);
    var j :| 0 <= j < |list| && list[j].id == other;
    var after := Lookup(Delete(s, key, id), key);
    assert list[j] in after;
    var k :| 0 <= k < |after| && after[k] == list[j];
  }

  lemma ToggleKeepsInvariant(app: App, id: string)
    requires AppInvariant(app) && app.page.selected.Some?
    ensures AppInvariant(ToggleCompleted(app, DateKey(app.page.selected.value), id))
  {
    var p := app.page;
    var key := DateKey(p.selected.value);
    var r := ToggleCompleted(app, key, id);
    ToggleKeepsKeys(app.store, key, id);
    if p.editing.Some? && HasEvent(Lookup(app.store, key), id) {
      var list := Lookup(app.store, key);
      var j :| 0 <= j < |list| && list[j].id == p.editing.value.id;
      assert Lookup(r.store, key)[j].id == p.editing.value.id;
    }
  }

  lemma ToggleKeepsKeys(s: Snapshot, key: string, id: string)
    ensures forall k :: HasKey(Toggle(s, key, id), k) <==> HasKey(s, k)
  {
  }

  // ---------------------------------------------------------------------
  // Properties across actions

  /** The list beside the grid: the selected date's events in display
      order, or nothing when no date is selected. */
  function SelectedList(app: App): (r: seq<Event>)
    ensures app.page.selected.None? ==> r == []
    ensures app.page.selected.Some? ==> multiset(r) == multiset(Lookup(app.store, DateKey(app.page.selected.value)))
    ensures forall i, j :: 0 <= i < j < |r| && r[i].completed ==> r[j].completed
    ensures forall i, j :: 0 <= i < j < |r| && r[i].completed == r[j].completed ==> LexLe(r[i].time, r[j].time)
    ensures app.page.selected.Some? ==> r == EventsForDay(app.store, DateKey(app.page.selected.value))
  {
    if app.page.selected.None? then [] else EventsForDay(app.store, DateKey(app.page.selected.value))
  }

  /** The event being edited is always on screen in that list. */
  lemma EditedEventListed(app: App)
    requires AppInvariant(app) && app.page.editing.Some?
    ensures exists e :: e in SelectedList(app) && e.id == app.page.editing.value.id
  {
    var t := app.page.editing.value;
    var list := Lookup(app.store, t.key);
    var j :| 0 <= j < |list| && list[j].id == t.id;
    assert list[j] in multiset(SelectedList(app));
  }

  /** Every item of the upcoming list belongs to a date this program
      wrote, so a click on it always finds a real day to select. */
  lemma UpcomingKeysAreDates(app: App, now: int, limit: nat, x: Item)
    requires AppInvariant(app)
    requires x in Upcoming(app.store, now, limit)
    ensures IsDateKey(x.key)
  {
    UpcomingItemsAreStored(app.store, now, limit, x);
    var i :| 0 <= i < |app.store| && app.store[i].key == x.key && x.event in app.store[i].events;
    HasKeyAt(app.store, i);
  }

  /** Adding an event and deleting it again, from the list of the same
      date, restores the saved events when its id was fresh. */
  lemma AddThenDeleteRestores(app: App, id: string, createdAt: int)
    requires Valid(app.store)
    requires app.page.selected.Some? && !AllSpace(app.page.form.title)
    requires !HasEvent(Lookup(app.store, DateKey(app.page.selected.value)), id)
    ensures var mid := AddEvent(app, id, createdAt).app;
      DeleteEvent(mid, DateKey(app.page.selected.value), id).store == app.store
  {
    var p := app.page;
    var f := FormValues(p.form);
    AddThenDelete(app.store, DateKey(p.selected.value), Event(id, f.title, f.time, f.notes, false, createdAt));
  }
}

=== FILE: views.dfy ===
/** The two ordered lists beside the grid: the events of the selected date
    (`renderEventsForSelectedDate`) and the upcoming events across all dates
    (`renderUpcoming`). */
module Views {
  import opened Wrappers
  import opened Text
  import opened Dates
  import opened DateKeys
  import opened Seqs
  import opened Sorting
  import opened Store

  // ---------------------------------------------------------------------
  // Events of one date

  /** The per-date comparator returns at most 0: an event not yet done comes
      before a done one, and events in the same state go by their time
      string. */
  predicate DayLe(a: Event, b: Event) {
    (!a.completed && b.completed) || (a.completed == b.completed && LexLe(a.time, b.time))
  }

  lemma DayLeTotalPreorder()
    ensures TotalPreorder(DayLe)
  {
    forall a: Event, b: Event ensures DayLe(a, b) || DayLe(b, a) {
      LexLeTotal(a.time, b.time);
    }
    forall a: Event, b: Event, c: Event | DayLe(a, b) && DayLe(b, c) ensures DayLe(a, c) {
      if a.completed == b.completed == c.completed {
        LexLeTransitive(a.time, b.time, c.time);
      }
    }
  }

  /** The list under "For selected date": the date's events with every
      event not yet done before every done one, and by time within each
      group. */
  function EventsForDay(snap: Snapshot, key: string): (r: seq<Event>)
    ensures multiset(r) == multiset(Lookup(snap, key))
    ensures forall i, j :: 0 <= i < j < |r| && r[i].completed ==> r[j].completed
    ensures forall i, j :: 0 <= i < j < |r| && r[i].completed == r[j].completed ==> LexLe(r[i].time, r[j].time)
  {
    DayLeTotalPreorder();
    SortSorted(Lookup(snap, key), DayLe);
    Sort(Lookup(snap, key), DayLe)
  }

  /** The events in the same state as `x` with the same time. */
  function SameSlot(x: Event): Event -> bool {
    (y: Event) => y.completed == x.completed && y.time == x.time
  }

  /** Events in the same state with the same time keep the order in which
      they were stored. */
  lemma EventsForDayStable(snap: Snapshot, key: string, x: Event)
    ensures Filter(SameSlot(x), EventsForDay(snap, key)) == Filter(SameSlot(x), Lookup(snap, key))
  {
    DayLeTotalPreorder();
    forall y: Event ensures SameSlot(x)(y) <==> DayLe(x, y) && DayLe(y, x) {
      if DayLe(x, y) && DayLe(y, x) {
        LexLeAntisymmetric(x.time, y.time);
      }
    }
    SortIsStable(Lookup(snap, key), DayLe, SameSlot(x), x);
  }

  // ---------------------------------------------------------------------
  // Upcoming events

  /** An event stamped with its date key and its instant, counted in
      minutes from midnight of 1 January of year 0. */
  datatype Item = Item(key: string, event: Event, when: int)

  /** A missing time counts as midnight. */
  function ClockOf(ev: Event): string {
    if ev.time == "" then "00:00" else ev.time
  }

  /** `new Date(year, monthIndex, day, hh, mm)` for the event's key and
      time, or `None` where that is an invalid date: a key that does not
      read as a date, or a time without two numeric parts around a colon. */
  function InstantOf(key: string, ev: Event): (r: Option<int>)
    ensures r.Some? ==> ParseDateKey(key).Some?
    ensures ':' !in ClockOf(ev) ==> r.None?
  {
    ClockWithoutColon(ev);
    match ParseDateKey(key)
    case None => None
    case Some(d) =>
      var parts := Split(ClockOf(ev), ':');
      if |parts| < 2 then None
      else
        match (NumberOf(parts[0]), NumberOf(parts[1]))
        case (Some(h), Some(m)) => Some(Minute(DayNumber(d.year, d.monthIndex, d.day), h, m))
        case _ => None
  }

  /** A time without a colon is a single piece, so its minutes are
      `undefined`. */
  lemma ClockWithoutColon(ev: Event)
    ensures ':' !in ClockOf(ev) ==> Split(ClockOf(ev), ':') == [ClockOf(ev)]
  {
    if ':' !in ClockOf(ev) {
      SplitWithoutSep(ClockOf(ev), ':');
    }
  }

  /** Minute `h:m` of day number `day`. */
  function Minute(day: int, h: int, m: int): int {
    day * 1440 + h * 60 + m
  }

  /** The items of one date's events, in list order. */
  function FlattenEntry(key: string, evs: seq<Event>): (r: seq<Item>)
    ensures |r| <= |evs|
    ensures forall i :: 0 <= i < |r| ==> r[i].key == key
  {
    if |evs| == 0 then []
    else
      var rest := FlattenEntry(key, evs[1..]);
      match InstantOf(key, evs[0])
      case Some(t) => [Item(key, evs[0], t)] + rest
      case None => rest
  }

  /** The items of two lists one after the other are the items of the
      first list followed by those of the second: items keep list order. */
  lemma {:induction false} FlattenEntryAppend(key: string, a: seq<Event>, b: seq<Event>)
    ensures FlattenEntry(key, a + b) == FlattenEntry(key, a) + FlattenEntry(key, b)
    decreases |a|
  {
    if |a| == 0 {
      assert a + b == b;
    } else {
      assert (a + b)[1..] == a[1..] + b;
      FlattenEntryAppend(key, a[1..], b);
    }
  }

  /** A date's items are exactly its events with a valid instant, each
      stamped with the key and that instant. */
  lemma {:induction false} FlattenEntryMembers(key: string, evs: seq<Event>, x: Item)
    ensures x in FlattenEntry(key, evs) <==> x.key == key && x.event in evs && InstantOf(key, x.event) == Some(x.when)
  {
    if |evs| > 0 {
      FlattenEntryMembers(key, evs[1..], x);
      HeadAndTail(evs);
    }
  }

  /** Every event of the snapshot with a valid instant, date by date in key
      order and in list order within a date. */
  function Flatten(snap: Snapshot): (r: seq<Item>)
    ensures forall x :: x in r <==> exists i :: 0 <= i < |snap| && x in FlattenEntry(snap[i].key, snap[i].events)
    ensures |snap| == 1 ==> r == FlattenEntry(snap[0].key, snap[0].events)
  {
    if |snap| == 0 then []
    else
      var rest := Flatten(snap[1..]);
      assert forall i :: 1 <= i < |snap| ==> snap[i] == snap[1..][i - 1];
      FlattenEntry(snap[0].key, snap[0].events) + rest
  }

  /** The items of two snapshots one after the other are the items of the
      first followed by those of the second: items follow key order. */
  lemma {:induction false} FlattenAppend(a: Snapshot, b: Snapshot)
    ensures Flatten(a + b) == Flatten(a) + Flatten(b)
    decreases |a|
  {
    if |a| == 0 {
      assert a + b == b;
    } else {
      assert (a + b)[1..] == a[1..] + b;
      FlattenAppend(a[1..], b);
    }
  }

  predicate WhenLe(a: Item, b: Item) {
    a.when <= b.when
  }

  lemma WhenLeTotalPreorder()
    ensures TotalPreorder(WhenLe)
  {
  }

  /** Still to do and not before `now`. */
  function Qualifies(now: int): Item -> bool {
    (x: Item) => x.when >= now && !x.event.completed
  }

  /** `renderUpcoming(limit)`: sort all items soonest first, keep the ones
      not done and not before `now` (a whole minute), and show the first
      `limit` of them. */
  function Upcoming(snap: Snapshot, now: int, limit: nat): (r: seq<Item>)
    ensures |r| <= limit
    ensures forall i :: 0 <= i < |r| ==> r[i].when >= now && !r[i].event.completed
    ensures SortedBy(r, WhenLe)
  {
    WhenLeTotalPreorder();
    var all := Flatten(snap);
    FilterSortCommute(Qualifies(now), all, WhenLe);
    SortSorted(Filter(Qualifies(now), all), WhenLe);
    Take(Filter(Qualifies(now), Sort(all, WhenLe)), limit)
  }

  /** Filtering after the sort picks the same items in the same order as
      sorting only the qualifying items: the upcoming list is a prefix of
      all qualifying items, soonest first, ties in snapshot order. */
  lemma UpcomingIsPrefix(snap: Snapshot, now: int, limit: nat)
    ensures Upcoming(snap, now, limit) == Take(Sort(Filter(Qualifies(now), Flatten(snap)), WhenLe), limit)
  {
    WhenLeTotalPreorder();
    FilterSortCommute(Qualifies(now), Flatten(snap), WhenLe);
  }

  /** Nothing qualifying is left out that is sooner than a shown item, and
      when fewer than `limit` items are shown they are all there are. */
  lemma UpcomingComplete(snap: Snapshot, now: int, limit: nat)
    ensures var q, r := Filter(Qualifies(now), Flatten(snap)), Upcoming(snap, now, limit);
      && |r| == (if limit < |q| then limit else |q|)
      && multiset(r) <= multiset(q)
      && (forall x, y :: x in multiset(q) - multiset(r) && y in r ==> y.when <= x.when)
  {
    var q := Filter(Qualifies(now), Flatten(snap));
    var s := Sort(q, WhenLe);
    UpcomingIsPrefix(snap, now, limit);
    assert SortedBy(s, WhenLe) by {
      WhenLeTotalPreorder();
      SortSorted(q, WhenLe);
    }
    TakeOfPermutation(q, s, WhenLe, limit);
    var r := Take(s, limit);
    forall x, y | x in multiset(q) - multiset(r) && y in r ensures y.when <= x.when {
      assert WhenLe(y, x);
    }
  }

  /** Every upcoming item is an event stored under its key, stamped with
      the instant of that key and its time. */
  lemma UpcomingItemsAreStored(snap: Snapshot, now: int, limit: nat, x: Item)
    requires x in Upcoming(snap, now, limit)
    ensures exists i :: 0 <= i < |snap| && snap[i].key == x.key && x.event in snap[i].events
    ensures InstantOf(x.key, x.event) == Some(x.when)
  {
    WhenLeTotalPreorder();
    var all := Flatten(snap);
    var sorted := Sort(all, WhenLe);
    var kept := Filter(Qualifies(now), sorted);
    assert Upcoming(snap, now, limit) == Take(kept, limit);
    assert x in kept;
    assert x in multiset(sorted);
    assert x in all;
    var i :| 0 <= i < |snap| && x in FlattenEntry(snap[i].key, snap[i].events);
    FlattenEntryMembers(snap[i].key, snap[i].events, x);
  }

  /** A key written by `DateKey` and a time written as two two-digit
      numbers around a colon give the minute of that clock time on that
      date; a missing time gives midnight. */
  lemma InstantOfClock(d: Date, ev: Event, h: nat, m: nat)
    requires d.monthIndex >= 0 && d.day >= 0
    requires ev.time == PadStart2(Digits(h)) + ":" + PadStart2(Digits(m)) || (ev.time == "" && h == 0 && m == 0)
    ensures InstantOf(DateKey(d), ev) == Some(Minute(DayNumber(d.year, d.monthIndex, d.day), h, m))
  {
    KeyRoundTrip(d);
    ClockParts(ev, h, m);
    InstantOfParts(DateKey(d), ev, d, h, m);
  }

  lemma InstantOfParts(key: string, ev: Event, d: Date, h: int, m: int)
    requires ParseDateKey(key) == Some(d)
    requires var parts := Split(ClockOf(ev), ':');
      |parts| == 2 && NumberOf(parts[0]) == Some(h) && NumberOf(parts[1]) == Some(m)
    ensures InstantOf(key, ev) == Some(Minute(DayNumber(d.year, d.monthIndex, d.day), h, m))
  {
    var parts := Split(ClockOf(ev), ':');
    assert (NumberOf(parts[0]), NumberOf(parts[1])) == (Some(h), Some(m));
  }

  lemma ClockParts(ev: Event, h: nat, m: nat)
    requires ev.time == PadStart2(Digits(h)) + ":" + PadStart2(Digits(m)) || (ev.time == "" && h == 0 && m == 0)
    ensures var parts := Split(ClockOf(ev), ':');
      |parts| == 2 && NumberOf(parts[0]) == Some(h) && NumberOf(parts[1]) == Some(m)
  {
    var hh, mm := PadStart2(Digits(h)), PadStart2(Digits(m));
    assert ClockOf(ev) == hh + [':'] + mm by {
      if ev.time == "" {
        assert Digits(0) == "0";
      }
    }
    NoColonInDigits(h);
    NoColonInDigits(m);
    SplitWithoutSep(mm, ':');
    SplitAtFirstSep(hh, ':', mm);
    NumberOfPaddedDigits(h);
    NumberOfPaddedDigits(m);
  }

  lemma NoColonInDigits(n: nat)
    ensures ':' !in PadStart2(Digits(n))
  {
    NotInDigits(PadStart2(Digits(n)), ':');
  }
}

=== FILE: wrappers.dfy ===
/** The optional-value type used wherever the calendar code yields `null`,
    `undefined` or `NaN`. */
module Wrappers {

  datatype Option<+T> = None | Some(value: T)
}
